=== FILE: README.md ===
# SHL assessment recommender — a Dafny model

The recommender ranks catalogue assessments against a free-text job query. It has two front ends:

- an HTTP endpoint `/recommend` (api.py);
- an interactive page (app.py).

Both use one scoring engine, `recommend_assessments`. The engine works in four steps:

1. It picks a duration preference from the query. The first of the phrases `short`, `medium`, `long` found in the lower-cased query sets it. The smallest of the numbers `15, 20, …, 60` found in the raw query then overrides it.
2. It scores every catalogue record. A record gets one point per keyword that the query asks for and the record's type or name mentions. It gets one more point when its duration does not exceed the preference.
3. It drops records with score zero and stably sorts the rest by descending score.
4. It returns the first `max_results` records.

The endpoint validates the request and projects each record onto six public fields. The page refuses blank input before it calls the engine.

The engine appears twice in the source: api.py:30-59 and app.py:14-43 are identical apart from one blank line. The model defines it once, in module `Scoring`. The `Ui` lemmas route the page through the same definition.

Modules:

- `Wrappers`: `Option` and `Result`.
- `Text`: the Python string operations the engine uses. This covers `lower`, `in`, `split()[0]`, `strip`, `str(n)` and `isspace`.
- `Duration`: `int(duration.split()[0])`, with Python's `IndexError` and `ValueError` cases (except the digit-count limit, see below).
- `Ranking`: the stable insertion sort by descending score, the prefix slice, and an independent reference ranking (score groups 9 down to 1).
- `Scoring`: the duration preference, the per-record score and the catalogue pipeline.
- `Similarity`: difflib's `ratio() > 0.5` reduced to its size bound.
- `Api`: the endpoint's 400/500/200 decisions and the six-field projection.
- `Ui`: the button handler of the page.

Inputs the model takes as parameters:

- The catalogue is a parameter `seq<Record>`. It is not loaded from `shl_assessments.json`.
- The fuzzy test `similar(query, kw) > 0.5` is a parameter `sim: (string, string) -> bool`.
- An exception from reading a record's duration (api.py:52) becomes a `Failure` that carries a `DurationError`. The endpoint turns it into a 500 response and the page into a `Crashed` outcome.
- The `AttributeError` that a truthy non-string POST `query` raises at `query.lower()` (api.py:36) is decided before scoring, in `Api.Validate`, as the 500 fault `QueryNotString`.

## Model

| member | source | states |
|---|---|---|
| Text.IsSpace | api.py:52 | the whitespace set of `split()` and `strip()` is, among ASCII characters, exactly space, the controls 9-13 and 28-31; no whitespace character is a digit or an upper-case letter |
| Text.IsSubstring | api.py:36 | `p in s` holds exactly when `p` occurs at some position of `s` |
| Text.Lower | api.py:36 | `.lower()`: each upper-case ASCII letter becomes its lower-case partner, every other character is kept, and no upper-case letter remains |
| Text.FirstToken | api.py:52 | `s.split()[0]`: `None` (the `IndexError`) exactly when `s` is all whitespace; otherwise a non-empty token free of whitespace |
| Text.FirstTokenOf | api.py:52 | after leading blanks, the first token is the whole word that ends at the next blank or at the end |
| Text.Strip | app.py:53 | `query.strip()` is empty exactly when the query is all whitespace; otherwise it neither starts nor ends with whitespace |
| Text.DecimalString | api.py:40 | `str(num)` is a non-empty digit string without a leading zero |
| Text.DecimalStringRoundTrip | api.py:40 | the digits of `str(n)` read back as `n` |
| Duration.ParseInt | api.py:52 | `int(t)` succeeds exactly on an optionally signed digit run with single underscores between digits; a minus sign gives a non-positive value |
| Duration.ParseIntRoundTrip | api.py:52 | `int(str(n)) == n`, and `-n` or `n` with a sign in front |
| Duration.LeadingZeros | api.py:52 | any run of leading zeros before `str(n)` is accepted and reads back as `n`, as in `int("007") == 7` |
| Duration.LeadingZerosValue | api.py:52 | zeros in front of a digit string leave its value unchanged |
| Duration.UnderscoreIgnored | api.py:52 | for any two digit runs `a` and `b`, `int(a + "_" + b)` is accepted and equals `int(a + b)` |
| Duration.DropUnderscoresConcat | api.py:52 | removing the separating underscores distributes over concatenation |
| Duration.UnderscoreExamples | api.py:52 | `int("1_000")` is 1000; a leading, trailing or doubled underscore raises |
| Duration.ParseDuration | api.py:52 | `int(d.split()[0])` fails with a missing token exactly when `d` is blank; it fails with the offending token when that token is not an integer; otherwise it is the integer value of the first token |
| Duration.DurationRoundTrip | api.py:52 | `"<blanks><n> <unit>"` parses back to `n` |
| Duration.NonNumericDuration | api.py:52 | `"abc minutes"` raises on the token `abc`; a blank duration raises for lack of a token |
| Scoring.FirstIndex | api.py:35-42 | the first position whose element passes the test, with every earlier element failing it; `None` when no element passes |
| Scoring.PhrasePreference | api.py:32-38 | the phrase loop yields nothing or one of the table's minutes, 20, 40 or 60 |
| Scoring.NumericPreference | api.py:39-42 | the number loop yields nothing or one of the candidate numbers |
| Scoring.PhrasePreferenceFirstMatch | api.py:32-38 | the phrase step gives 20 exactly when "short" is in the lower-cased query; 40 when "medium" is and "short" is not; 60 when only "long" is; none otherwise |
| Scoring.NumericPreferenceIsSmallest | api.py:39-42 | the number step gives `n` exactly when `n` is a candidate, `str(n)` is in the raw query and no smaller candidate is |
| Scoring.NumericPreferenceNone | api.py:39-42 | the number step finds nothing exactly when no candidate's decimal string is in the query |
| Scoring.DurationNumbersAscending | api.py:39 | the candidate list is strictly ascending, so scan order is numeric order |
| Scoring.NumberOverridesPhrase | api.py:35-42 | if any candidate number is in the query, the final preference is the smallest such number, whatever the phrase step chose |
| Scoring.PhraseWhenNoNumber | api.py:35-42 | with no candidate number in the query, the phrase step alone decides |
| Scoring.Preference | api.py:32-42 | a preference, when set, is one of the candidate numbers (20, 40 and 60 among them) |
| Scoring.Truthy | api.py:51 | `if preferred_duration:` is false exactly for `None` and `0` |
| Scoring.PreferenceTruthy | api.py:51 | `if preferred_duration:` is the same test as "a preference was found" |
| Scoring.NumberInsideLargerNumber | api.py:40 | matching is not word-bounded: "long 115" yields 15, not 60 |
| Scoring.KeywordWanted | api.py:48 | the query wants a keyword exactly when the keyword occurs in the lower-cased query or the fuzzy test fires |
| Scoring.KeywordInRecord | api.py:49 | a record mentions a keyword exactly when it occurs in its lower-cased type or its lower-cased name |
| Scoring.KeywordHit | api.py:48-49 | a keyword earns a point exactly when it occurs in the lower-cased query or the fuzzy test fires, and it occurs in the record's lower-cased type or name |
| Scoring.KeywordPoints | api.py:47-50 | the keyword loop gives at most one point per keyword, and zero exactly when no keyword is both wanted by the query and found in the record's type or name |
| Scoring.KeywordPointsCountsHits | api.py:47-50 | for distinct keywords, the points are the number of keywords that are hits |
| Scoring.KeywordsDistinct | api.py:31 | the eight keywords are pairwise distinct |
| Scoring.WithDurationBonus | api.py:51-54 | the bonus step fails exactly when a preference is set and the duration cannot be read, with that error; otherwise it adds one point exactly when the parsed minutes do not exceed the preference |
| Scoring.ScoreRecord | api.py:44-54 | a record's score fails exactly when a preference is set and its duration is malformed; otherwise the score is at most 9 |
| Scoring.ScoreDefinition | api.py:44-54 | the score is the number of keyword hits plus one exactly when a preference is set and the parsed duration is at most the preference |
| Scoring.ScoreMonotone | api.py:44-54 | a record with the same duration that mentions every keyword another record mentions scores at least as high, and scores whenever the other does |
| Scoring.KeywordPointsMonotone | api.py:47-50 | the keyword points never decrease when a record mentions a superset of the keywords |
| Scoring.SameScoreWhenSamePoints | api.py:47-54 | the fuzzy test affects the score only through the keyword points |
| Scoring.NoPreferenceNeverFails | api.py:51-52 | without a preference the duration is never read, so no record can make scoring fail |
| Scoring.ScorerFor | api.py:46-54 | the loop body for a query fails on a record exactly when a preference is set and the record's duration is malformed, with that error; otherwise it gives a score of at most 9 |
| Scoring.ScoreAll | api.py:45-54 | the catalogue loop succeeds exactly when every record scores; its scores are the records' scores in order; on failure it carries the error of the first failing record |
| Scoring.FirstFailureShift | api.py:45 | a first failure in the tail is the first failure of the whole catalogue when the head scores |
| Scoring.KeepPositive | api.py:55-56 | every kept pair has a positive score and is some catalogue record paired with its score |
| Scoring.KeepPositiveKeeps | api.py:55-56 | every record with a positive score is kept |
| Scoring.KeepPositiveLength | api.py:55-56 | the filter keeps as many pairs as there are non-zero scores |
| Scoring.KeepPositiveGroups | api.py:55-56 | for each score the filter keeps exactly the catalogue's records of that score, in catalogue order |
| Scoring.RankWith | api.py:44-58 | the ranked list is in non-increasing score order; each entry is a catalogue record with its positive score; every record with a positive score appears; failure comes from the first record that fails |
| Scoring.RankedFacts | api.py:55-58 | the sorted filtered list holds exactly the positively scored catalogue records, each with its own score |
| Scoring.Ranked | api.py:44-58 | the sorted list for a query fails exactly when a preference is set and some duration is malformed; otherwise it is in non-increasing score order and holds catalogue records with their positive scores |
| Scoring.RecommendWith | api.py:44-59 | the result has at most `max_results` records and at most as many as the catalogue; each is a catalogue record with a positive score |
| Scoring.Recommend | api.py:30-59 | `recommend_assessments` fails exactly when a preference is set and some record's duration is malformed, with the first such record's error; otherwise it returns at most `max_results` catalogue records, each with a positive score |
| Scoring.ScorerFails | api.py:51-52 | the real scorer fails on a record exactly when a preference is set and that record's duration is malformed |
| Scoring.RecommendLength | api.py:59 | the result length is `min(max_results, number of positive scores)`, and the result is a prefix of the ranked list |
| Scoring.TopOfRanking | api.py:59 | the slice of the ranked list has length `min(max_results, number of positive scores)` |
| Scoring.RankedTiesKeepCatalogOrder | api.py:58 | the records of each score in the ranking are the catalogue's records of that score, in catalogue order |
| Scoring.RankedMatchesReference | api.py:55-58 | the ranking equals the reference ranking: the score-9 records, then score 8, …, then score 1, each group in catalogue order |
| Scoring.ScoresBounded | api.py:44-54 | every score of a successful run is at most 9 |
| Scoring.KeptWithinBounds | api.py:55-56 | kept scores lie in 1..9 |
| Scoring.UniformScoresKeepCatalogOrder | api.py:58-59 | when all records score the same positive value, the result is the first `max_results` records of the catalogue |
| Scoring.TiesKeepOrder | api.py:58-59 | sorting and slicing a list of ties gives the catalogue's own prefix |
| Scoring.AllPositiveKept | api.py:55-56 | when no score is zero, the filter keeps every record in order |
| Ranking.WithScore | api.py:58 | a score group is no longer than the input and every pair in it has that score |
| Ranking.WithScoreCounts | api.py:58 | a score group holds exactly the input's pairs of that score, each as often as the input holds it |
| Ranking.Insert | api.py:58 | insertion keeps the list descending and places the new pair in front of the pairs it ties with, leaving every other score group unchanged |
| Ranking.InsertPermutes | api.py:58 | insertion adds exactly the new pair |
| Ranking.SortByScoreDesc | api.py:58 | the sort is a permutation, is in non-increasing score order, and leaves every score group in input order (stability) |
| Ranking.StableOrderUnique | api.py:58 | two descending lists with the same score groups are equal, so sortedness plus stability determine the output |
| Ranking.SortIsBuckets | api.py:58 | for scores in 1..9 the stable sort equals the reference concatenation of score groups 9 down to 1 |
| Ranking.SortOfTiesIsIdentity | api.py:58 | a list of ties is left unchanged by the sort |
| Ranking.BucketsFacts | api.py:58 | the reference ranking is descending, has scores in 1..hi, and has the input's score groups for 1..hi |
| Ranking.WithScoreConcat | api.py:58 | a score group of a concatenation is the concatenation of the groups |
| Ranking.WithScoreNonEmpty | api.py:58 | a score group is non-empty exactly when some pair has that score |
| Ranking.Items | api.py:59 | `[res[1] for res in results]` keeps order and length |
| Ranking.ItemsOfPrefix | api.py:59 | the records of a prefix of the ranking are a prefix of its records |
| Ranking.SliceTo | api.py:59 | `s[:n]` is a prefix of `s` of length `min(n, len(s))` for `n >= 0`, and drops `-n` elements from the end for `n < 0` |
| Similarity.RatioOracle | api.py:27-28 | with a matching count bounded by both lengths, `ratio() > 0.5` can hold only when each string is shorter than three times the other |
| Similarity.LongQueryNeverFuzzy | api.py:27-28 | a query at least three times as long as the keyword never reaches ratio 0.5 |
| Similarity.SamePointsWhenAgreeing | api.py:48 | two fuzzy tests that agree on every keyword give the same points |
| Similarity.KeywordsWantedAlike | api.py:48 | for a query of at least 39 characters, a keyword is wanted with the ratio test exactly when it is wanted by substring alone |
| Similarity.LongQueryScoresIgnoreFuzzy | api.py:27-28 | for queries of 39 characters or more, every score equals the substring-only score |
| Api.Validate | api.py:68-75 | a non-empty GET query and a non-empty string POST query are run as given; any query that runs is the request's own non-empty string; a rejection is a 400 or a 500 |
| Api.Status | api.py:70-94 | a result gets a 2xx code, a refused request a 4xx code and a failure inside the handler a 5xx code |
| Api.Project | api.py:79-91 | each returned object has exactly the keys name, url, remote, adaptive, duration and type, taken from the record, and never a score |
| Api.Projections | api.py:79-91 | one object per record, in ranked order |
| Api.Answer | api.py:77-94 | a validated query is answered with 200 exactly when scoring succeeds, and with at most ten objects |
| Api.Endpoint | api.py:65-94 | a 200 comes only from a validated query and holds at most ten six-field objects; a 400 carries one of the two messages |
| Api.GetRejectsOnlyEmpty | api.py:68-70 | a GET is refused with 400 "Query parameter is missing" exactly when its query is empty |
| Api.PostRejectsMissingOrEmpty | api.py:72-75 | a POST object is refused with 400 "No query provided" exactly when `query` is absent, empty or a falsy non-string |
| Api.AcceptedQueryOutcome | api.py:77-94 | after validation, the response is 200 with the projected ranking exactly when scoring succeeds; it is 500 exactly when a preference is set and some duration is malformed |
| Api.BlankQueryAccepted | api.py:69 | a query of blanks passes `not query` and is answered with 200 |
| Api.NoPreferenceScored | api.py:51-52 | a query without a preference always scores |
| Api.ScoredQueryAnswered | api.py:68-77 | a non-empty query string that scores is answered with 200 by GET and by POST |
| Api.BlankHasNoPreference | api.py:35-42 | blanks contain no phrase and no number, so they set no preference |
| Api.BlanksHaveNoNumber | api.py:39-42 | no candidate number occurs in blanks |
| Api.BlanksHaveNoPhrase | api.py:35-38 | no duration phrase occurs in lower-cased blanks |
| Api.NoWordInBlanks | api.py:36 | a word with a non-blank character is not a substring of blanks |
| Ui.Submit | app.py:52-55 | the page warns exactly when the query is blank; otherwise it shows exactly what `recommend_assessments(query)` returns (at most ten catalogue records), or crashes with its error, which happens exactly when a preference is set and some duration is malformed |
| Ui.ShownIsRankedPrefix | app.py:39-43 | what the page shows is the first `min(10, len(ranking))` records of the descending ranking |
| Ui.BlankQueryHandledDifferently | app.py:53 | for a non-empty blank query the page warns while the endpoint answers 200 |

## Left out

- The engine text in app.py:14-43 is not modelled a second time. It is the same as api.py:30-59, and `Ui.Submit` calls `Scoring.Recommend`.
- difflib's `SequenceMatcher` is left out: it is foreign code that returns a float. The fuzzy test is a parameter. `Similarity.RatioOracle` keeps only the size bound `2M / (|a| + |b|)` with `M` at most the shorter length.
- Catalogue loading from `shl_assessments.json`, and its error handling, is file I/O. The catalogue is an input sequence.
- FastAPI app creation, CORS middleware and the health route are framework plumbing.
- The `await request.json()` call is reduced to the three body shapes it can produce.
- The 500 responses carry a fault kind, not the text of `str(e)`.
- Streamlit and pandas rendering (app.py:46-72) is left out. It is display only. The page outcome keeps the shown records, not the banner, links or table.
- The emoji in the page's warning text are dropped. The rest of the message is kept.
- Text.Lower: only ASCII letters are lower-cased. Python's `str.lower` also folds non-ASCII letters.
- Duration.ParseInt: only ASCII digits are accepted. Python's `int` also accepts other Unicode decimal digits.
- Duration.ParseInt: the integer-string digit limit of CPython 3.11 and later (and of the 3.7.14, 3.8.14, 3.9.14 and 3.10.7 security releases) is not modelled. There, `int()` raises `ValueError` on a decimal literal of more than 4300 digits, by default. So a duration such as 4301 ones followed by ` minutes`, with a preference set, ends in a 500 in the source. The model instead parses it and scores the record. The limit depends on the interpreter version and on `sys.set_int_max_str_digits`, so the model takes Python's unbounded `int`.
- `remote` and `adaptive` are modelled as strings. The JSON values are copied unchanged, and their type does not matter to the engine.
- Catalogue records that lack any of the keys `name`, `url`, `remote`, `adaptive`, `duration` or `type` are left out. Every `Record` has all six. In the source a missing key raises `KeyError`: while scoring (`type`, `name`, `duration`) or while projecting (all six, api.py:82-87). The catch-all at api.py:93-94 turns it into a 500, which the model never produces.
- Records whose `type`, `name` or `duration` is not a string are left out. Every `Record` holds them as strings.
- The phrase scan follows the code's dict insertion order (`short`, `medium`, `long`). It does not treat that order as unspecified.
- Scoring.RecommendLength: it states the exact length only for `max_results >= 0`. For a negative value the slice semantics are still modelled by `Ranking.SliceTo`.

=== FILE: api.dfy ===
/** The decision layer of the `/recommend` endpoint (api.py): which request
    is refused with 400, which ends in 500, and how a successful ranking is
    projected onto the six public fields of each record. */
module Api {
  import opened Wrappers
  import opened Text
  import opened Duration
  import opened Scoring

  /** The `query` member of a POST body, as JSON delivers it. */
  datatype QueryField = Missing | Str(s: string) | NonString(truthy: bool)

  /** A POST body: not JSON at all, JSON that is not an object, or an object. */
  datatype Body = InvalidJson | NotAnObject | Object(query: QueryField)

  /** GET carries the `query` parameter, `""` when it is absent. */
  datatype Request = Get(query: string) | Post(body: Body)

  /** What the catch-all handler turns into a 500 response. */
  datatype Fault =
    | ScoringFailed(error: DurationError)  // the duration of some record could not be read
    | BodyNotJson                          // `await request.json()` raised
    | BodyNotObject                        // `data.get` on a JSON array, string or number
    | QueryNotString                       // `query.lower()` on a truthy non-string

  datatype Response =
    | Ok(recommendations: seq<map<string, string>>)
    | BadRequest(error: string)
    | ServerError(fault: Fault)

  const MissingQueryParameter: string := "Query parameter is missing"
  const NoQueryProvided: string := "No query provided"

  /** The keys of every object in a successful response. */
  const ProjectedFields: set<string> := {"name", "url", "remote", "adaptive", "duration", "type"}

  /** The HTTP status code: the 2xx class exactly for a result, 4xx for a
      refused request, 5xx for a failure inside the handler. */
  function Status(r: Response): (s: int)
    ensures 200 <= s <= 599
    ensures s < 300 <==> r.Ok?
    ensures 400 <= s < 500 <==> r.BadRequest?
    ensures 500 <= s <==> r.ServerError?
  {
    match r
    case Ok(_) => 200
    case BadRequest(_) => 400
    case ServerError(_) => 500
  }

  /** Either the response the endpoint returns before scoring, or the query
      string it hands to the scorer. */
  datatype Decision = Reject(response: Response) | Run(query: string)

  /** The checks of the endpoint before `recommend_assessments` is called.
      Python's `not query` is true only for the empty string (and for falsy
      non-strings), so a query of blanks goes through. */
  function Validate(req: Request): (d: Decision)
    ensures d.Run? ==> d.query != []
    ensures req.Get? && req.query != [] ==> d == Run(req.query)
    ensures req.Post? && req.body.Object? && req.body.query.Str? && req.body.query.s != [] ==>
              d == Run(req.body.query.s)
    ensures d.Run? ==> req == Get(d.query) || req == Post(Object(Str(d.query)))
    ensures d.Reject? ==> d.response.BadRequest? || d.response.ServerError?
  {
    match req
    case Get(q) =>
      if q == [] then Reject(BadRequest(MissingQueryParameter)) else Run(q)
    case Post(InvalidJson) => Reject(ServerError(BodyNotJson))
    case Post(NotAnObject) => Reject(ServerError(BodyNotObject))
    case Post(Object(Missing)) => Reject(BadRequest(NoQueryProvided))
    case Post(Object(Str(q))) =>
      if q == [] then Reject(BadRequest(NoQueryProvided)) else Run(q)
    case Post(Object(NonString(truthy))) =>
      if truthy then Reject(ServerError(QueryNotString)) else Reject(BadRequest(NoQueryProvided))
  }

  /** The JSON object returned for one recommended record: exactly the six
      public fields, whatever else the catalogue entry holds. */
  function Project(rec: Record): (o: map<string, string>)
    ensures o.Keys == ProjectedFields
    ensures "score" !in o
    ensures o["name"] == rec.name && o["url"] == rec.url && o["remote"] == rec.remote
    ensures o["adaptive"] == rec.adaptive && o["duration"] == rec.duration && o["type"] == rec.kind
  {
    map["name" := rec.name, "url" := rec.url, "remote" := rec.remote,
        "adaptive" := rec.adaptive, "duration" := rec.duration, "type" := rec.kind]
  }

  /** The objects of a 200 response, one per record, in the given order. */
  function Projections(recs: seq<Record>): (objs: seq<map<string, string>>)
    ensures |objs| == |recs|
    ensures forall i :: 0 <= i < |recs| ==> objs[i] == Project(recs[i])
  {
    seq(|recs|, i requires 0 <= i < |recs| => Project(recs[i]))
  }

  /** Scoring a validated query and turning the outcome into a response. */
  function Answer(q: string, catalog: seq<Record>, sim: Similarity): (r: Response)
    ensures r.Ok? || r.ServerError?
    ensures r.Ok? ==> |r.recommendations| <= DefaultMaxResults && |r.recommendations| <= |catalog|
    ensures r.Ok? <==> Recommend(q, catalog, DefaultMaxResults, sim).Success?
  {
    match Recommend(q, catalog, DefaultMaxResults, sim)
    case Failure(e) => ServerError(ScoringFailed(e))
    case Success(recs) => Ok(Projections(recs))
  }

  /** `recommend_endpoint`, given the catalogue and the fuzzy test. */
  function Endpoint(req: Request, catalog: seq<Record>, sim: Similarity): (r: Response)
    ensures r.Ok? ==> Validate(req).Run?
    ensures r.Ok? ==> |r.recommendations| <= DefaultMaxResults && |r.recommendations| <= |catalog|
    ensures r.Ok? ==> forall i :: 0 <= i < |r.recommendations| ==>
                        r.recommendations[i].Keys == ProjectedFields && "score" !in r.recommendations[i]
    ensures r.BadRequest? ==> r.error == MissingQueryParameter || r.error == NoQueryProvided
    ensures r.BadRequest? ==> Validate(req).Reject?
  {
    match Validate(req)
    case Reject(resp) => resp
    case Run(q) => Answer(q, catalog, sim)
  }

  /** A GET is refused exactly when its query is empty, with the GET message. */
  lemma GetRejectsOnlyEmpty(q: string, catalog: seq<Record>, sim: Similarity)
    ensures Endpoint(Get(q), catalog, sim).BadRequest? <==> q == []
    ensures q == [] ==> Endpoint(Get(q), catalog, sim) == BadRequest(MissingQueryParameter)
    ensures q == [] ==> Status(Endpoint(Get(q), catalog, sim)) == 400
  {
  }

  /** A POST whose object lacks `query`, or holds an empty or other falsy
      one, is refused with the POST message. */
  lemma PostRejectsMissingOrEmpty(field: QueryField, catalog: seq<Record>, sim: Similarity)
    ensures Endpoint(Post(Object(field)), catalog, sim).BadRequest? <==>
              field.Missing? || field == Str([]) || field == NonString(false)
    ensures Endpoint(Post(Object(field)), catalog, sim).BadRequest? ==>
              Endpoint(Post(Object(field)), catalog, sim) == BadRequest(NoQueryProvided)
  {
  }

  /** Once the query passes validation, the response is 200 with the ranked
      records projected in ranked order, or 500 when scoring failed; the
      500 arises exactly when a preference is set and some record's duration
      cannot be read. */
  lemma AcceptedQueryOutcome(req: Request, catalog: seq<Record>, sim: Similarity)
    requires Validate(req).Run?
    ensures var q := Validate(req).query;
            Endpoint(req, catalog, sim).Ok? <==> Recommend(q, catalog, DefaultMaxResults, sim).Success?
    ensures var q := Validate(req).query;
            Endpoint(req, catalog, sim).Ok? ==>
              Endpoint(req, catalog, sim).recommendations
              == Projections(Recommend(q, catalog, DefaultMaxResults, sim).value)
    ensures var q := Validate(req).query;
            Status(Endpoint(req, catalog, sim)) == 500 <==>
              Truthy(Preference(q)) && exists i :: 0 <= i < |catalog| && ParseDuration(catalog[i].duration).Failure?
  {
    var q := Validate(req).query;
    assert Endpoint(req, catalog, sim) == Answer(q, catalog, sim);
  }

  /** `not query` lets a query of blanks through: the scorer runs on it and,
      having no duration preference, cannot fail. */
  lemma BlankQueryAccepted(q: string, catalog: seq<Record>, sim: Similarity)
    requires q != [] && AllSpace(q)
    ensures Endpoint(Get(q), catalog, sim).Ok?
    ensures Endpoint(Post(Object(Str(q))), catalog, sim).Ok?
  {
    BlankHasNoPreference(q);
    NoPreferenceScored(q, catalog, sim);
    ScoredQueryAnswered(q, catalog, sim);
  }

  /** Without a duration preference, scoring cannot fail. */
  lemma NoPreferenceScored(q: string, catalog: seq<Record>, sim: Similarity)
    requires Preference(q).None?
    ensures Recommend(q, catalog, DefaultMaxResults, sim).Success?
  {
  }

  /** A non-empty query string that scores without error is answered with
      200, whether it came as a GET parameter or in a POST body. */
  lemma ScoredQueryAnswered(q: string, catalog: seq<Record>, sim: Similarity)
    requires q != [] && Recommend(q, catalog, DefaultMaxResults, sim).Success?
    ensures Endpoint(Get(q), catalog, sim).Ok?
    ensures Endpoint(Post(Object(Str(q))), catalog, sim).Ok?
  {
    assert Answer(q, catalog, sim).Ok?;
  }

  /** Blanks contain neither a duration phrase nor a digit. */
  lemma BlankHasNoPreference(q: string)
    requires AllSpace(q)
    ensures Preference(q).None?
  {
    BlanksHaveNoNumber(q);
    PhraseWhenNoNumber(q);
    BlanksHaveNoPhrase(q);
  }

  lemma BlanksHaveNoNumber(q: string)
    requires AllSpace(q)
    ensures forall m :: m in DurationNumbers ==> !IsSubstring(DecimalString(m), q)
  {
    forall m | m in DurationNumbers
      ensures !IsSubstring(DecimalString(m), q)
    {
      NoWordInBlanks(DecimalString(m), q);
    }
  }

  lemma BlanksHaveNoPhrase(q: string)
    requires AllSpace(q)
    ensures PhrasePreference(q).None?
  {
    var lq := Lower(q);
    assert AllSpace(lq) by {
      forall i | 0 <= i < |lq|
        ensures IsSpace(lq[i])
      {
        assert lq[i] == LowerChar(q[i]);
      }
    }
    NoWordInBlanks("short", lq);
    NoWordInBlanks("medium", lq);
    NoWordInBlanks("long", lq);
    PhrasePreferenceFirstMatch(q);
  }

  /** A string starting with a non-blank never occurs inside blanks. */
  lemma NoWordInBlanks(p: string, s: string)
    requires AllSpace(s) && p != [] && !IsSpace(p[0])
    ensures !IsSubstring(p, s)
  {
    if i :| OccursAt(p, s, i) {
      assert s[i] == p[0];
    }
  }
}

=== FILE: duration.dfy ===
/** `int(assessment["duration"].split()[0])`: reading the leading whole
    number of minutes out of a record's duration text. */
module Duration {
  import opened Wrappers
  import opened Text

  /** The two exceptions the expression can raise: `IndexError` when the text
      holds no token, `ValueError` when the first token is not an integer. */
  datatype DurationError = MissingToken | InvalidLiteral(token: string)

  /** The digits of a Python integer literal as `int()` accepts them in base
      10: ASCII digits, where single underscores may separate two digits. */
  predicate IsDigitRun(b: string) {
    && |b| > 0
    && IsDigit(b[0])
    && IsDigit(b[|b| - 1])
    && (forall i :: 0 <= i < |b| ==> IsDigit(b[i]) || b[i] == '_')
    && (forall i :: 0 < i < |b| && b[i] == '_' ==> b[i - 1] != '_')
  }

  predicate IsSign(c: char) {
    c == '+' || c == '-'
  }

  /** What `int()` accepts from a token without whitespace: an optional
      sign followed by a digit run. */
  predicate IsIntegerLiteral(t: string) {
    if |t| > 0 && IsSign(t[0]) then IsDigitRun(t[1..]) else IsDigitRun(t)
  }

  /** The digits of `b` with the separating underscores removed. */
  function DropUnderscores(b: string): (r: string)
    requires forall i :: 0 <= i < |b| ==> IsDigit(b[i]) || b[i] == '_'
    ensures |r| <= |b|
    ensures forall i :: 0 <= i < |r| ==> IsDigit(r[i])
    ensures (forall i :: 0 <= i < |b| ==> IsDigit(b[i])) ==> r == b
  {
    if b == [] then []
    else if b[0] == '_' then DropUnderscores(b[1..])
    else [b[0]] + DropUnderscores(b[1..])
  }

  /** The value of a digit run. */
  function RunValue(b: string): nat
    requires IsDigitRun(b)
  {
    DigitsValue(DropUnderscores(b))
  }

  /** `int(t)` for a token `t` without whitespace; `None` where Python
      raises `ValueError`. */
  function ParseInt(t: string): (r: Option<int>)
    ensures r.Some? <==> IsIntegerLiteral(t)
    ensures r.Some? && |t| > 0 && t[0] == '-' ==> r.value <= 0
    ensures r.Some? && !(|t| > 0 && t[0] == '-') ==> r.value >= 0
  {
    if |t| > 0 && IsSign(t[0]) then
      if IsDigitRun(t[1..]) then
        var v: int := RunValue(t[1..]);
        Some(if t[0] == '-' then -v else v)
      else None
    else if IsDigitRun(t) then Some(RunValue(t))
    else None
  }

  /** `int(d.split()[0])`. */
  function ParseDuration(d: string): (r: Result<int, DurationError>)
    ensures r == Failure(MissingToken) <==> AllSpace(d)
    ensures r.Failure? && r.error.InvalidLiteral? ==>
              FirstToken(d) == Some(r.error.token) && !IsIntegerLiteral(r.error.token)
    ensures r.Success? ==> FirstToken(d).Some? && ParseInt(FirstToken(d).value) == Some(r.value)
  {
    match FirstToken(d)
    case None => Failure(MissingToken)
    case Some(t) =>
      match ParseInt(t)
      case None => Failure(InvalidLiteral(t))
      case Some(v) => Success(v)
  }

  /** `int(str(n)) == n`, and with a minus sign in front `-n`. */
  lemma ParseIntRoundTrip(n: nat)
    ensures ParseInt(DecimalString(n)) == Some(n)
    ensures ParseInt("-" + DecimalString(n)) == Some(-(n as int))
    ensures ParseInt("+" + DecimalString(n)) == Some(n)
  {
    var s := DecimalString(n);
    DecimalStringRoundTrip(n);
    assert ("-" + s)[1..] == s;
    assert ("+" + s)[1..] == s;
  }

  /** A duration written as blanks, the decimal number, then nothing or a
      blank-separated unit (`"30 minutes"`) reads back as that number. */
  lemma DurationRoundTrip(lead: string, n: nat, rest: string)
    requires AllSpace(lead)
    requires rest == [] || IsSpace(rest[0])
    ensures ParseDuration(lead + DecimalString(n) + rest) == Success(n)
  {
    FirstTokenOf(lead, DecimalString(n), rest);
    ParseIntRoundTrip(n);
  }

  /** Underscores between digits are accepted and ignored, as in `int("1_000")`;
      a leading, trailing or doubled underscore is a `ValueError`. */
  lemma UnderscoreExamples()
    ensures ParseInt("1_000") == Some(1000)
    ensures ParseInt("_1") == None
    ensures ParseInt("1_") == None
    ensures ParseInt("1__0") == None
  {
    assert !IsDigitRun("1_") by {
      assert !IsDigit("1_"[1]);
    }
    assert !IsDigitRun("1__0") by {
      assert "1__0"[2] == '_' && "1__0"[1] == '_';
    }
    assert IsDigitRun("1_000");
    assert DropUnderscores("1_000") == "1000";
    assert DigitsValue("1") == 1;
    assert DigitsValue("10") == 10 by { assert "10"[..1] == "1"; }
    assert DigitsValue("100") == 100 by { assert "100"[..2] == "10"; }
    assert DigitsValue("1000") == 1000 by { assert "1000"[..3] == "100"; }
  }

  /** Leading zeros are accepted and do not change the value, as in
      `int("007") == 7`. */
  lemma {:induction false} LeadingZeros(zeros: string, n: nat)
    requires forall i :: 0 <= i < |zeros| ==> zeros[i] == '0'
    ensures ParseInt(zeros + DecimalString(n)) == Some(n)
  {
    var d := DecimalString(n);
    var s := zeros + d;
    assert IsDigit(s[0]) && IsDigit(s[|s| - 1]);
    assert forall i :: 0 <= i < |s| ==> IsDigit(s[i]);
    assert IsDigitRun(s);
    LeadingZerosValue(zeros, d);
    DecimalStringRoundTrip(n);
  }

  /** Zeros in front of a digit string leave its value unchanged. */
  lemma {:induction false} LeadingZerosValue(zeros: string, d: string)
    requires forall i :: 0 <= i < |zeros| ==> zeros[i] == '0'
    requires forall i :: 0 <= i < |d| ==> IsDigit(d[i])
    ensures DigitsValue(zeros + d) == DigitsValue(d)
  {
    if d == [] {
      assert zeros + d == zeros;
      ZerosValue(zeros);
    } else {
      assert (zeros + d)[..|zeros + d| - 1] == zeros + d[..|d| - 1];
      LeadingZerosValue(zeros, d[..|d| - 1]);
    }
  }

  lemma {:induction false} ZerosValue(zeros: string)
    requires forall i :: 0 <= i < |zeros| ==> zeros[i] == '0'
    ensures DigitsValue(zeros) == 0
  {
    if zeros != [] {
      ZerosValue(zeros[..|zeros| - 1]);
    }
  }

  /** A single underscore between two digit runs is ignored:
      `int(a + "_" + b) == int(a + b)`, and both are accepted. */
  lemma UnderscoreIgnored(a: string, b: string)
    requires IsDigitRun(a) && IsDigitRun(b)
    ensures ParseInt(a + "_" + b).Some?
    ensures ParseInt(a + "_" + b) == ParseInt(a + b)
  {
    var s := a + "_" + b;
    var t := a + b;
    assert s == a + ("_" + b);
    assert forall i :: 0 <= i < |s| ==> IsDigit(s[i]) || s[i] == '_';
    assert forall i :: 0 < i < |s| && s[i] == '_' ==> s[i - 1] != '_' by {
      forall i | 0 < i < |s| && s[i] == '_'
        ensures s[i - 1] != '_'
      {
        if i < |a| {
          assert s[i] == a[i] && s[i - 1] == a[i - 1];
        } else if i == |a| {
          assert s[i - 1] == a[|a| - 1];
        } else if i > |a| + 1 {
          assert s[i] == b[i - |a| - 1] && s[i - 1] == b[i - |a| - 2];
        }
      }
    }
    assert IsDigitRun(s) by {
      assert s[0] == a[0] && s[|s| - 1] == b[|b| - 1];
    }
    assert forall i :: 0 <= i < |t| ==> IsDigit(t[i]) || t[i] == '_';
    assert forall i :: 0 < i < |t| && t[i] == '_' ==> t[i - 1] != '_' by {
      forall i | 0 < i < |t| && t[i] == '_'
        ensures t[i - 1] != '_'
      {
        if i < |a| {
          assert t[i] == a[i] && t[i - 1] == a[i - 1];
        } else {
          assert t[i] == b[i - |a|];
          assert i - |a| > 0;
          assert t[i - 1] == b[i - |a| - 1];
        }
      }
    }
    assert IsDigitRun(t) by {
      assert t[0] == a[0] && t[|t| - 1] == b[|b| - 1];
    }
    DropUnderscoresConcat(a, "_" + b);
    assert ("_" + b)[1..] == b;
    DropUnderscoresConcat(a, b);
  }

  /** Removing underscores distributes over concatenation. */
  lemma {:induction false} DropUnderscoresConcat(a: string, b: string)
    requires forall i :: 0 <= i < |a| ==> IsDigit(a[i]) || a[i] == '_'
    requires forall i :: 0 <= i < |b| ==> IsDigit(b[i]) || b[i] == '_'
    ensures DropUnderscores(a + b) == DropUnderscores(a) + DropUnderscores(b)
  {
    if a != [] {
      assert (a + b)[1..] == a[1..] + b;
      DropUnderscoresConcat(a[1..], b);
    } else {
      assert a + b == b;
    }
  }

  /** Text whose first token is not an integer, such as `"abc minutes"`,
      is a `ValueError` carrying that token. */
  lemma NonNumericDuration()
    ensures ParseDuration("abc minutes") == Failure(InvalidLiteral("abc"))
    ensures ParseDuration(" \t") == Failure(MissingToken)
  {
    FirstTokenOf("", "abc", " minutes");
    assert "" + "abc" + " minutes" == "abc minutes";
    assert !IsDigit("abc"[0]);
  }
}

=== FILE: ranking.dfy ===
/** `sorted(results, key=lambda x: x[0], reverse=True)` and `results[:n]`:
    the stable descending sort of (score, item) pairs and Python's prefix
    slice. Python's sort stays stable under `reverse=True`, so pairs with
    equal scores keep their input order. */
module Ranking {

  /** One `(score, assessment)` pair of the results list. */
  datatype Scored<T> = Scored(score: int, item: T)

  /** Scores never increase from left to right. */
  ghost predicate SortedDesc<T>(xs: seq<Scored<T>>) {
    forall i, j :: 0 <= i < j < |xs| ==> xs[i].score >= xs[j].score
  }

  /** The pairs of `xs` that carry score `k`, in their order in `xs`. A sort
      is stable exactly when it leaves every such subsequence unchanged. */
  function WithScore<T>(xs: seq<Scored<T>>, k: int): (r: seq<Scored<T>>)
    ensures |r| <= |xs|
    ensures forall i :: 0 <= i < |r| ==> r[i].score == k
  {
    if xs == [] then []
    else (if xs[0].score == k then [xs[0]] else []) + WithScore(xs[1..], k)
  }

  /** A score group holds exactly the input's pairs of that score, each as
      often as the input does. */
  lemma {:induction false} WithScoreCounts<T>(xs: seq<Scored<T>>, k: int)
    ensures forall x :: multiset(WithScore(xs, k))[x] == if x.score == k then multiset(xs)[x] else 0
  {
    if xs != [] {
      WithScoreCounts(xs[1..], k);
      assert xs == [xs[0]] + xs[1..];
    }
  }

  /** Inserts `x` into the descending list `t` in front of every pair whose
      score is not above its own, so that `x` precedes the pairs it ties with. */
  function Insert<T>(x: Scored<T>, t: seq<Scored<T>>): (r: seq<Scored<T>>)
    requires SortedDesc(t)
    ensures |r| == |t| + 1
    ensures r[0] == x || (t != [] && r[0] == t[0])
    ensures SortedDesc(r)
    ensures forall k :: WithScore(r, k) == (if x.score == k then [x] else []) + WithScore(t, k)
  {
    if t == [] || x.score >= t[0].score then
      var r := [x] + t;
      assert r[0] == x && r[1..] == t;
      r
    else
      var rest := Insert(x, t[1..]);
      var r := [t[0]] + rest;
      assert r[0] == t[0] && r[1..] == rest;
      assert t == [t[0]] + t[1..];
      assert t[0].score >= rest[0].score;
      r
  }

  /** Insertion adds `x` and loses nothing. */
  lemma {:induction false} InsertPermutes<T>(x: Scored<T>, t: seq<Scored<T>>)
    requires SortedDesc(t)
    ensures multiset(Insert(x, t)) == multiset(t) + multiset{x}
  {
    if t != [] && x.score < t[0].score {
      InsertPermutes(x, t[1..]);
      assert t == [t[0]] + t[1..];
      assert Insert(x, t) == [t[0]] + Insert(x, t[1..]);
    }
  }

  /** The stable insertion sort by descending score. */
  function SortByScoreDesc<T>(xs: seq<Scored<T>>): (r: seq<Scored<T>>)
    ensures SortedDesc(r)
    ensures |r| == |xs| && multiset(r) == multiset(xs)
    ensures forall k :: WithScore(r, k) == WithScore(xs, k)
  {
    if xs == [] then []
    else
      assert xs == [xs[0]] + xs[1..];
      InsertPermutes(xs[0], SortByScoreDesc(xs[1..]));
      Insert(xs[0], SortByScoreDesc(xs[1..]))
  }

  /** The items of a list of pairs, in order: `[res[1] for res in results]`. */
  function Items<T>(xs: seq<Scored<T>>): (r: seq<T>)
    ensures |r| == |xs|
    ensures forall i :: 0 <= i < |xs| ==> r[i] == xs[i].item
  {
    seq(|xs|, i requires 0 <= i < |xs| => xs[i].item)
  }

  /** The items of a prefix are a prefix of the items. */
  lemma ItemsOfPrefix<T>(a: seq<Scored<T>>, b: seq<Scored<T>>)
    requires a <= b
    ensures Items(a) <= Items(b)
  {
    assert forall i :: 0 <= i < |a| ==> a[i] == b[i];
  }

  /** Python's `s[:n]`: the first `n` elements, or all of them when `n` is
      larger; a negative `n` counts from the end, so `s[:-1]` drops the last. */
  function SliceTo<T>(s: seq<T>, n: int): (r: seq<T>)
    ensures r <= s
    ensures n >= 0 ==> |r| == if n <= |s| then n else |s|
    ensures n < 0 ==> |r| == if -n <= |s| then |s| + n else 0
  {
    if n >= 0 then
      if n <= |s| then s[..n] else s
    else
      if -n <= |s| then s[..|s| + n] else []
  }

  // ---------------------------------------------------------------------
  // An independent reference ranking: scores live in 1..9, so the stable
  // descending order is the score-9 pairs, then the score-8 pairs, ..., then
  // the score-1 pairs, each group in input order.

  /** The groups of scores `hi`, `hi - 1`, ..., 1 of `xs`, concatenated. */
  function Buckets<T>(xs: seq<Scored<T>>, hi: int): seq<Scored<T>>
    decreases hi
  {
    if hi < 1 then [] else WithScore(xs, hi) + Buckets(xs, hi - 1)
  }

  ghost predicate ScoresWithin<T>(xs: seq<Scored<T>>, lo: int, hi: int) {
    forall i :: 0 <= i < |xs| ==> lo <= xs[i].score <= hi
  }

  lemma {:induction false} WithScoreConcat<T>(a: seq<Scored<T>>, b: seq<Scored<T>>, k: int)
    ensures WithScore(a + b, k) == WithScore(a, k) + WithScore(b, k)
  {
    if a == [] {
      assert a + b == b;
    } else {
      assert (a + b)[0] == a[0] && (a + b)[1..] == a[1..] + b;
      WithScoreConcat(a[1..], b, k);
    }
  }

  /** Filtering a list whose scores are all `h` by score `k`. */
  lemma {:induction false} WithScoreUniform<T>(xs: seq<Scored<T>>, h: int, k: int)
    requires ScoresWithin(xs, h, h)
    ensures WithScore(xs, k) == if h == k then xs else []
  {
    if xs != [] {
      WithScoreUniform(xs[1..], h, k);
      assert xs == [xs[0]] + xs[1..];
    }
  }

  lemma {:induction false} BucketsFacts<T>(xs: seq<Scored<T>>, hi: int)
    ensures ScoresWithin(Buckets(xs, hi), 1, hi)
    ensures SortedDesc(Buckets(xs, hi))
    ensures forall k :: WithScore(Buckets(xs, hi), k) == if 1 <= k <= hi then WithScore(xs, k) else []
    decreases hi
  {
    if hi >= 1 {
      var w := WithScore(xs, hi);
      var rest := Buckets(xs, hi - 1);
      BucketsFacts(xs, hi - 1);
      assert ScoresWithin(w, hi, hi);
      forall k
        ensures WithScore(w + rest, k) == if 1 <= k <= hi then WithScore(xs, k) else []
      {
        WithScoreConcat(w, rest, k);
        WithScoreUniform(w, hi, k);
      }
    }
  }

  /** A score group is non-empty exactly when some pair carries the score. */
  lemma {:induction false} WithScoreNonEmpty<T>(xs: seq<Scored<T>>, k: int)
    ensures WithScore(xs, k) != [] <==> exists i :: 0 <= i < |xs| && xs[i].score == k
  {
    if xs != [] {
      WithScoreNonEmpty(xs[1..], k);
      if i :| 0 < i < |xs| && xs[i].score == k {
        assert xs[1..][i - 1].score == k;
      }
    }
  }

  /** The head of a non-empty list lies in its own score group. */
  lemma HeadGroup<T>(xs: seq<Scored<T>>)
    ensures xs != [] ==> WithScore(xs, xs[0].score) != []
  {
  }

  /** Two descending lists that agree on every score group are equal:
      sortedness plus stability pins the output down completely. */
  lemma {:induction false} StableOrderUnique<T>(a: seq<Scored<T>>, b: seq<Scored<T>>)
    requires SortedDesc(a) && SortedDesc(b)
    requires forall k :: WithScore(a, k) == WithScore(b, k)
    ensures a == b
    decreases |a|
  {
    if a == [] {
      HeadGroup(b);
    } else if b == [] {
      HeadGroup(a);
    } else {
      var m := a[0].score;
      var n := b[0].score;
      assert WithScore(a, m) != [];
      assert WithScore(b, n) != [];
      WithScoreNonEmpty(b, m);
      WithScoreNonEmpty(a, n);
      assert m == n;
      assert a[0] == b[0] by {
        assert WithScore(a, m)[0] == a[0];
        assert WithScore(b, m)[0] == b[0];
      }
      forall k
        ensures WithScore(a[1..], k) == WithScore(b[1..], k)
      {
        var p: seq<Scored<T>> := if m == k then [a[0]] else [];
        assert WithScore(a, k) == p + WithScore(a[1..], k);
        assert WithScore(b, k) == p + WithScore(b[1..], k);
        assert WithScore(a[1..], k) == WithScore(a, k)[|p|..];
        assert WithScore(b[1..], k) == WithScore(b, k)[|p|..];
      }
      StableOrderUnique(a[1..], b[1..]);
      assert a == [a[0]] + a[1..] && b == [b[0]] + b[1..];
    }
  }

  /** For scores within 1..9 the stable sort is the reference ranking. */
  lemma SortIsBuckets<T>(xs: seq<Scored<T>>)
    requires ScoresWithin(xs, 1, 9)
    ensures SortByScoreDesc(xs) == Buckets(xs, 9)
  {
    var sorted := SortByScoreDesc(xs);
    var reference := Buckets(xs, 9);
    BucketsFacts(xs, 9);
    forall k
      ensures WithScore(sorted, k) == WithScore(reference, k)
    {
      if !(1 <= k <= 9) {
        WithScoreNonEmpty(xs, k);
      }
    }
    StableOrderUnique(sorted, reference);
  }

  /** When every pair ties, the sort changes nothing. */
  lemma SortOfTiesIsIdentity<T>(xs: seq<Scored<T>>, s: int)
    requires ScoresWithin(xs, s, s)
    ensures SortByScoreDesc(xs) == xs
  {
    var r := SortByScoreDesc(xs);
    forall k
      ensures WithScore(r, k) == WithScore(xs, k)
    {
    }
    StableOrderUnique(r, xs);
  }
}

=== FILE: scoring.dfy ===
/** The scoring engine, `recommend_assessments` (api.py, repeated verbatim in
    app.py): a duration preference read from the query, a per-record score
    from eight fixed keywords plus a duration bonus, then the positive-score
    records stably sorted by descending score and cut to `max_results`. */
module Scoring {
  import opened Wrappers
  import opened Text
  import opened Duration
  import opened Ranking

  /** One catalogue entry. `kind` is the JSON `type` field; `extra` holds
      whatever other fields the JSON object carries. */
  datatype Record = Record(
    name: string,
    url: string,
    remote: string,
    adaptive: string,
    duration: string,
    kind: string,
    extra: map<string, string>)

  /** `similar(query, kw) > 0.5`: difflib's ratio test, kept abstract. */
  type Similarity = (string, string) -> bool

  const Keywords: seq<string> :=
    ["python", "sql", "java", "cognitive", "personality", "communication", "reasoning", "analyst"]

  /** The phrase table, in the insertion order Python iterates it in. */
  const DurationPhrases: seq<(string, int)> := [("short", 20), ("medium", 40), ("long", 60)]

  /** The numeric candidates, scanned in this ascending order. */
  const DurationNumbers: seq<nat> := [15, 20, 25, 30, 35, 40, 45, 50, 60]

  /** The default of `max_results`. */
  const DefaultMaxResults: int := 10

  /** Eight keywords plus the duration bonus. */
  const MaxScore: nat := 9

  /** The position of the first element of `xs` satisfying `p`. */
  function FirstIndex<T>(xs: seq<T>, p: T -> bool): (r: Option<nat>)
    ensures r.Some? ==> r.value < |xs| && p(xs[r.value])
    ensures r.Some? ==> forall j :: 0 <= j < r.value ==> !p(xs[j])
    ensures r.None? ==> forall j :: 0 <= j < |xs| ==> !p(xs[j])
  {
    if xs == [] then None
    else if p(xs[0]) then Some(0)
    else
      match FirstIndex(xs[1..], p)
      case None => None
      case Some(i) => Some(i + 1)
  }

  // ---------------------------------------------------------------------
  // Duration preference

  /** The first loop: the minutes of the first phrase of the table that
      occurs in the lower-cased query. */
  function PhrasePreference(query: string): (r: Option<int>)
    ensures r.Some? ==> r.value == 20 || r.value == 40 || r.value == 60
  {
    var lq := Lower(query);
    match FirstIndex(DurationPhrases, (e: (string, int)) => IsSubstring(e.0, lq))
    case None => None
    case Some(i) => Some(DurationPhrases[i].1)
  }

  /** The second loop: the first candidate number whose decimal string occurs
      in the raw query. The test is a plain substring test, not word-bounded. */
  function NumericPreference(query: string): (r: Option<int>)
    ensures r.Some? ==> r.value in DurationNumbers
  {
    match FirstIndex(DurationNumbers, (n: nat) => IsSubstring(DecimalString(n), query))
    case None => None
    case Some(i) => Some(DurationNumbers[i])
  }

  /** `preferred_duration` after both loops: the second loop runs after the
      first and overwrites it when it finds a number. */
  function Preference(query: string): (r: Option<int>)
    ensures r.Some? ==> r.value in DurationNumbers
  {
    assert DurationNumbers[1] == 20 && DurationNumbers[5] == 40 && DurationNumbers[8] == 60;
    match NumericPreference(query)
    case Some(n) => Some(n)
    case None => PhrasePreference(query)
  }

  /** Python's truth value of `preferred_duration`: `None` and `0` are false. */
  predicate Truthy(pref: Option<int>): (b: bool)
    ensures b <==> pref != None && pref != Some(0)
  {
    pref.Some? && pref.value != 0
  }

  lemma PhrasePreferenceFirstMatch(query: string)
    ensures PhrasePreference(query) == Some(20) <==> IsSubstring("short", Lower(query))
    ensures PhrasePreference(query) == Some(40) <==>
              !IsSubstring("short", Lower(query)) && IsSubstring("medium", Lower(query))
    ensures PhrasePreference(query) == Some(60) <==>
              !IsSubstring("short", Lower(query)) && !IsSubstring("medium", Lower(query))
              && IsSubstring("long", Lower(query))
    ensures PhrasePreference(query) == None <==>
              !IsSubstring("short", Lower(query)) && !IsSubstring("medium", Lower(query))
              && !IsSubstring("long", Lower(query))
  {
    var lq := Lower(query);
    var p := (e: (string, int)) => IsSubstring(e.0, lq);
    assert DurationPhrases[0] == ("short", 20);
    assert DurationPhrases[1] == ("medium", 40);
    assert DurationPhrases[2] == ("long", 60);
    assert p(DurationPhrases[0]) == IsSubstring("short", lq);
    assert p(DurationPhrases[1]) == IsSubstring("medium", lq);
    assert p(DurationPhrases[2]) == IsSubstring("long", lq);
  }

  /** The numeric candidates are strictly ascending, so the first match in
      scan order is the smallest matching number. */
  lemma DurationNumbersAscending()
    ensures forall i, j :: 0 <= i < j < |DurationNumbers| ==> DurationNumbers[i] < DurationNumbers[j]
  {
  }

  /** The second loop picks the smallest candidate number the query contains. */
  lemma NumericPreferenceIsSmallest(query: string, n: nat)
    ensures NumericPreference(query) == Some(n) <==>
              && n in DurationNumbers
              && IsSubstring(DecimalString(n), query)
              && forall m :: m in DurationNumbers && m < n ==> !IsSubstring(DecimalString(m), query)
  {
    var p := (m: nat) => IsSubstring(DecimalString(m), query);
    var r := FirstIndex(DurationNumbers, p);
    if r.Some? {
      var i := r.value;
      assert forall j :: 0 <= j < i ==> !IsSubstring(DecimalString(DurationNumbers[j]), query) by {
        forall j | 0 <= j < i
          ensures !IsSubstring(DecimalString(DurationNumbers[j]), query)
        {
          assert !p(DurationNumbers[j]);
        }
      }
      NoCandidateBelow(query, i);
      if n in DurationNumbers && IsSubstring(DecimalString(n), query) && n != DurationNumbers[i] {
        CandidateIndex(n);
        var j :| 0 <= j < |DurationNumbers| && DurationNumbers[j] == n;
        assert p(DurationNumbers[j]);
        DurationNumbersAscending();
      }
    }
  }

  /** The second loop finds nothing exactly when the query contains no
      candidate number. */
  lemma NumericPreferenceNone(query: string)
    ensures NumericPreference(query) == None <==>
              forall m :: m in DurationNumbers ==> !IsSubstring(DecimalString(m), query)
  {
    var p := (m: nat) => IsSubstring(DecimalString(m), query);
    var r := FirstIndex(DurationNumbers, p);
    if r.None? {
      forall m | m in DurationNumbers
        ensures !IsSubstring(DecimalString(m), query)
      {
        CandidateIndex(m);
        var j :| 0 <= j < |DurationNumbers| && DurationNumbers[j] == m;
        assert !p(DurationNumbers[j]);
      }
    }
  }

  lemma CandidateIndex(m: nat)
    requires m in DurationNumbers
    ensures exists j :: 0 <= j < |DurationNumbers| && DurationNumbers[j] == m
  {
  }

  /** If none of the first `i` candidates occurs, no candidate below the
      `i`-th does. */
  lemma NoCandidateBelow(query: string, i: nat)
    requires i < |DurationNumbers|
    requires forall j :: 0 <= j < i ==> !IsSubstring(DecimalString(DurationNumbers[j]), query)
    ensures forall m :: m in DurationNumbers && m < DurationNumbers[i] ==> !IsSubstring(DecimalString(m), query)
  {
    DurationNumbersAscending();
    forall m | m in DurationNumbers && m < DurationNumbers[i]
      ensures !IsSubstring(DecimalString(m), query)
    {
      CandidateIndex(m);
      var j :| 0 <= j < |DurationNumbers| && DurationNumbers[j] == m;
      assert j < i;
    }
  }

  /** When the raw query contains one of the candidate numbers, the final
      preference is the smallest such number, whatever the phrase loop chose. */
  lemma NumberOverridesPhrase(query: string, m: nat)
    requires m in DurationNumbers && IsSubstring(DecimalString(m), query)
    ensures Preference(query).Some?
    ensures Preference(query).value in DurationNumbers
    ensures Preference(query).value <= m
    ensures IsSubstring(DecimalString(Preference(query).value), query)
    ensures forall k :: k in DurationNumbers && k < Preference(query).value ==>
              !IsSubstring(DecimalString(k), query)
  {
    NumericPreferenceIsSmallest(query, m);
    var n :| NumericPreference(query) == Some(n);
    assert n in DurationNumbers;
    NumericPreferenceIsSmallest(query, n);
  }

  /** Without a candidate number the phrase loop decides. */
  lemma PhraseWhenNoNumber(query: string)
    requires forall m :: m in DurationNumbers ==> !IsSubstring(DecimalString(m), query)
    ensures Preference(query) == PhrasePreference(query)
  {
    NumericPreferenceNone(query);
  }

  /** Every preference the two loops produce is truthy, so `if
      preferred_duration:` is the same test as "a preference is set". */
  lemma PreferenceTruthy(query: string)
    ensures Truthy(Preference(query)) <==> Preference(query).Some?
  {
  }

  /** The number test is not word-bounded: "115" contains "15", and the
      number wins over the phrase "long". */
  lemma NumberInsideLargerNumber()
    ensures Preference("long 115") == Some(15)
  {
    var q := "long 115";
    assert DecimalString(15) == "15";
    assert OccursAt("15", q, 6);
    NumberOverridesPhrase(q, 15);
  }

  // ---------------------------------------------------------------------
  // Per-record score

  /** The query asks for `kw`: it contains it, or the fuzzy test fires. */
  predicate KeywordWanted(query: string, kw: string, sim: Similarity): (b: bool)
    ensures b <==> (exists i :: OccursAt(kw, Lower(query), i)) || sim(query, kw)
  {
    IsSubstring(kw, Lower(query)) || sim(query, kw)
  }

  /** The record mentions `kw` in its lower-cased type or name. */
  predicate KeywordInRecord(kw: string, rec: Record): (b: bool)
    ensures b <==> (exists i :: OccursAt(kw, Lower(rec.kind), i)) || (exists i :: OccursAt(kw, Lower(rec.name), i))
  {
    IsSubstring(kw, Lower(rec.kind)) || IsSubstring(kw, Lower(rec.name))
  }

  /** The two nested tests of the keyword loop both pass: the keyword earns
      the record a point. */
  predicate KeywordHit(query: string, kw: string, rec: Record, sim: Similarity): (b: bool)
    ensures b <==>
              && ((exists i :: OccursAt(kw, Lower(query), i)) || sim(query, kw))
              && ((exists i :: OccursAt(kw, Lower(rec.kind), i)) || (exists i :: OccursAt(kw, Lower(rec.name), i)))
  {
    KeywordWanted(query, kw, sim) && KeywordInRecord(kw, rec)
  }

  /** The keyword loop: one point per keyword of `kws` that is a hit. */
  function KeywordPoints(query: string, rec: Record, kws: seq<string>, sim: Similarity): (r: nat)
    ensures r <= |kws|
    ensures r == 0 <==> forall i :: 0 <= i < |kws| ==> !KeywordHit(query, kws[i], rec, sim)
  {
    if kws == [] then 0
    else
      (if KeywordHit(query, kws[0], rec, sim) then 1 else 0)
      + KeywordPoints(query, rec, kws[1..], sim)
  }

  /** The duration step applied to `points` keyword points: when the
      preference is truthy, the leading number of `duration` is parsed and
      one point is added if it does not exceed the preference. */
  function WithDurationBonus(points: nat, pref: Option<int>, duration: string)
    : (r: Result<nat, DurationError>)
    ensures r.Failure? <==> Truthy(pref) && ParseDuration(duration).Failure?
    ensures r.Failure? ==> r.error == ParseDuration(duration).error
    ensures r.Success? ==> points <= r.value <= points + 1
    ensures r.Success? ==>
              (r.value == points + 1 <==> Truthy(pref) && ParseDuration(duration).value <= pref.value)
  {
    if Truthy(pref) then
      match ParseDuration(duration)
      case Failure(e) => Failure(e)
      case Success(minutes) => Success(if minutes <= pref.value then points + 1 else points)
    else
      Success(points)
  }

  /** The score of one record under preference `pref`; a failure where
      `int(assessment["duration"].split()[0])` raises. The duration is read
      only when the preference is truthy. */
  function ScoreRecord(query: string, pref: Option<int>, rec: Record, sim: Similarity)
    : (r: Result<nat, DurationError>)
    ensures r.Failure? <==> Truthy(pref) && ParseDuration(rec.duration).Failure?
    ensures r.Failure? ==> r.error == ParseDuration(rec.duration).error
    ensures r.Success? ==> r.value <= MaxScore
  {
    WithDurationBonus(KeywordPoints(query, rec, Keywords, sim), pref, rec.duration)
  }

  /** The hits among distinct keywords, counted as a set. */
  lemma {:induction false} KeywordPointsCountsHits(query: string, rec: Record, kws: seq<string>, sim: Similarity)
    requires forall i, j :: 0 <= i < j < |kws| ==> kws[i] != kws[j]
    ensures KeywordPoints(query, rec, kws, sim)
            == |set kw | kw in kws && KeywordHit(query, kw, rec, sim)|
  {
    if kws != [] {
      var tail := kws[1..];
      KeywordPointsCountsHits(query, rec, tail, sim);
      var all := set kw | kw in kws && KeywordHit(query, kw, rec, sim);
      var rest := set kw | kw in tail && KeywordHit(query, kw, rec, sim);
      assert kws[0] !in tail by {
        forall j | 0 <= j < |tail|
          ensures tail[j] != kws[0]
        {
          assert tail[j] == kws[j + 1];
        }
      }
      if KeywordHit(query, kws[0], rec, sim) {
        assert all == rest + {kws[0]};
      } else {
        assert all == rest;
      }
    }
  }

  /** The score of a record, stated without the loop: the number of keywords
      the query asks for and the record mentions, plus one exactly when a
      preference is set and the record's minutes do not exceed it. */
  lemma ScoreDefinition(query: string, pref: Option<int>, rec: Record, sim: Similarity)
    requires ScoreRecord(query, pref, rec, sim).Success?
    ensures ScoreRecord(query, pref, rec, sim).value
            == |set kw | kw in Keywords && KeywordHit(query, kw, rec, sim)|
               + (if Truthy(pref) && ParseDuration(rec.duration).value <= pref.value then 1 else 0)
  {
    KeywordsDistinct();
    KeywordPointsCountsHits(query, rec, Keywords, sim);
    var points := KeywordPoints(query, rec, Keywords, sim);
    assert ScoreRecord(query, pref, rec, sim) == WithDurationBonus(points, pref, rec.duration);
  }

  /** A record that mentions every keyword another record mentions, and has
      the same duration, scores at least as high: more keyword matches never
      lower the score. */
  lemma ScoreMonotone(query: string, pref: Option<int>, rec: Record, rec2: Record, sim: Similarity)
    requires rec2.duration == rec.duration
    requires forall kw :: KeywordHit(query, kw, rec, sim) ==> KeywordHit(query, kw, rec2, sim)
    requires ScoreRecord(query, pref, rec, sim).Success?
    ensures ScoreRecord(query, pref, rec2, sim).Success?
    ensures ScoreRecord(query, pref, rec2, sim).value >= ScoreRecord(query, pref, rec, sim).value
  {
    var p := KeywordPoints(query, rec, Keywords, sim);
    var p2 := KeywordPoints(query, rec2, Keywords, sim);
    KeywordPointsMonotone(query, rec, rec2, Keywords, sim);
    assert ScoreRecord(query, pref, rec, sim) == WithDurationBonus(p, pref, rec.duration);
    assert ScoreRecord(query, pref, rec2, sim) == WithDurationBonus(p2, pref, rec.duration);
  }

  /** Keyword points grow with the set of keywords a record mentions. */
  lemma {:induction false} KeywordPointsMonotone(query: string, rec: Record, rec2: Record, kws: seq<string>, sim: Similarity)
    requires forall kw :: KeywordHit(query, kw, rec, sim) ==> KeywordHit(query, kw, rec2, sim)
    ensures KeywordPoints(query, rec, kws, sim) <= KeywordPoints(query, rec2, kws, sim)
  {
    if kws != [] {
      KeywordPointsMonotone(query, rec, rec2, kws[1..], sim);
    }
  }

  /** No keyword is listed twice, so each can add at most one point. */
  lemma KeywordsDistinct()
    ensures forall i, j :: 0 <= i < j < |Keywords| ==> Keywords[i] != Keywords[j]
  {
    forall i, j | 0 <= i < j < |Keywords|
      ensures Keywords[i] != Keywords[j]
    {
      assert |Keywords[i]| != |Keywords[j]| || Keywords[i][0] != Keywords[j][0];
    }
  }

  /** The score depends on the fuzzy test only through the keyword points. */
  lemma SameScoreWhenSamePoints(query: string, pref: Option<int>, rec: Record, s1: Similarity, s2: Similarity)
    requires KeywordPoints(query, rec, Keywords, s1) == KeywordPoints(query, rec, Keywords, s2)
    ensures ScoreRecord(query, pref, rec, s1) == ScoreRecord(query, pref, rec, s2)
  {
  }

  /** Without a preference the duration text is never parsed, so no record
      can make scoring fail, however malformed its duration. */
  lemma NoPreferenceNeverFails(query: string, rec: Record, sim: Similarity)
    requires Preference(query).None?
    ensures ScoreRecord(query, Preference(query), rec, sim).Success?
  {
  }

  // ---------------------------------------------------------------------
  // The catalogue loop, the filter, the sort and the slice. They are stated
  // for any per-record scorer; `ScorerFor` supplies the one of the source.

  /** The body of the catalogue loop: a record's score, or the error that
      aborts the loop. */
  type Scorer = Record -> Result<nat, DurationError>

  /** The scorer `recommend_assessments` uses for `query`. */
  function ScorerFor(query: string, sim: Similarity): (score: Scorer)
    ensures forall rec :: score(rec).Failure? <==>
              Truthy(Preference(query)) && ParseDuration(rec.duration).Failure?
    ensures forall rec :: score(rec).Failure? ==> score(rec).error == ParseDuration(rec.duration).error
    ensures forall rec :: score(rec).Success? ==> score(rec).value <= MaxScore
  {
    (rec: Record) => ScoreRecord(query, Preference(query), rec, sim)
  }

  /** Record `i` is the first one whose score fails. */
  ghost predicate FirstFailure(catalog: seq<Record>, score: Scorer, i: int) {
    && 0 <= i < |catalog|
    && score(catalog[i]).Failure?
    && forall j :: 0 <= j < i ==> score(catalog[j]).Success?
  }

  /** Scores every record in catalogue order; the first failing record
      aborts the loop with its error. */
  function ScoreAll(catalog: seq<Record>, score: Scorer): (r: Result<seq<nat>, DurationError>)
    ensures r.Success? <==> forall i :: 0 <= i < |catalog| ==> score(catalog[i]).Success?
    ensures r.Success? ==> |r.value| == |catalog|
    ensures r.Success? ==> forall i :: 0 <= i < |catalog| ==> score(catalog[i]) == Success(r.value[i])
    ensures r.Failure? ==> exists i :: FirstFailure(catalog, score, i) && score(catalog[i]).error == r.error
  {
    if catalog == [] then Success([])
    else
      match score(catalog[0])
      case Failure(e) =>
        assert FirstFailure(catalog, score, 0);
        Failure(e)
      case Success(s) =>
        var tail := ScoreAll(catalog[1..], score);
        if tail.Failure? then
          FirstFailureShift(catalog, score, tail.error);
          Failure(tail.error)
        else
          assert forall i :: 1 <= i < |catalog| ==> catalog[i] == catalog[1..][i - 1];
          Success([s] + tail.value)
  }

  lemma FirstFailureShift(catalog: seq<Record>, score: Scorer, e: DurationError)
    requires |catalog| > 0 && score(catalog[0]).Success?
    requires exists j :: FirstFailure(catalog[1..], score, j) && score(catalog[1..][j]).error == e
    ensures exists i :: FirstFailure(catalog, score, i) && score(catalog[i]).error == e
  {
    var j :| FirstFailure(catalog[1..], score, j) && score(catalog[1..][j]).error == e;
    var tail := catalog[1..];
    assert catalog[j + 1] == tail[j];
    forall k | 0 <= k < j + 1
      ensures score(catalog[k]).Success?
    {
      if k > 0 {
        assert catalog[k] == tail[k - 1];
      }
    }
    assert FirstFailure(catalog, score, j + 1);
  }

  /** `if score > 0: results.append((score, assessment))`, in catalogue order. */
  function KeepPositive(catalog: seq<Record>, scores: seq<nat>): (r: seq<Scored<Record>>)
    requires |scores| == |catalog|
    ensures |r| <= |catalog|
    ensures forall k :: 0 <= k < |r| ==>
              r[k].score > 0 && exists i :: 0 <= i < |catalog| && r[k] == Scored(scores[i], catalog[i])
  {
    if catalog == [] then []
    else
      var head := if scores[0] > 0 then [Scored(scores[0], catalog[0])] else [];
      var rest := KeepPositive(catalog[1..], scores[1..]);
      var r := head + rest;
      forall k | |head| <= k < |r|
        ensures exists i :: 0 <= i < |catalog| && r[k] == Scored(scores[i], catalog[i])
      {
        var i :| 0 <= i < |catalog| - 1 && rest[k - |head|] == Scored(scores[1..][i], catalog[1..][i]);
        assert r[k] == Scored(scores[i + 1], catalog[i + 1]);
      }
      assert forall k | 0 <= k < |head| :: r[k] == Scored(scores[0], catalog[0]);
      r
  }

  /** Every record with a positive score survives the filter. */
  lemma {:induction false} KeepPositiveKeeps(catalog: seq<Record>, scores: seq<nat>, i: int)
    requires |scores| == |catalog| && 0 <= i < |catalog| && scores[i] > 0
    ensures Scored(scores[i], catalog[i]) in KeepPositive(catalog, scores)
  {
    if i > 0 {
      KeepPositiveKeeps(catalog[1..], scores[1..], i - 1);
    }
  }

  /** The catalogue records whose score is `k`, in catalogue order. */
  function RecordsWithScore(catalog: seq<Record>, scores: seq<nat>, k: int): seq<Record>
    requires |scores| == |catalog|
  {
    if catalog == [] then []
    else (if scores[0] == k then [catalog[0]] else []) + RecordsWithScore(catalog[1..], scores[1..], k)
  }

  /** The filter keeps exactly the records with a positive score: as many
      as there are non-zero scores. */
  lemma {:induction false} KeepPositiveLength(catalog: seq<Record>, scores: seq<nat>)
    requires |scores| == |catalog|
    ensures |KeepPositive(catalog, scores)| == |scores| - multiset(scores)[0]
  {
    if catalog != [] {
      KeepPositiveLength(catalog[1..], scores[1..]);
      assert scores == [scores[0]] + scores[1..];
    }
  }

  /** The filter keeps each score group in catalogue order. */
  lemma {:induction false} KeepPositiveGroups(catalog: seq<Record>, scores: seq<nat>, k: int)
    requires |scores| == |catalog| && k >= 1
    ensures Items(WithScore(KeepPositive(catalog, scores), k)) == RecordsWithScore(catalog, scores, k)
  {
    if catalog != [] {
      var head: seq<Scored<Record>> := if scores[0] > 0 then [Scored(scores[0], catalog[0])] else [];
      var rest := KeepPositive(catalog[1..], scores[1..]);
      assert KeepPositive(catalog, scores) == head + rest;
      KeepPositiveGroups(catalog[1..], scores[1..], k);
      WithScoreConcat(head, rest, k);
      var a := WithScore(head, k);
      var b := WithScore(rest, k);
      assert Items(a) == if scores[0] == k then [catalog[0]] else [] by {
        if head != [] {
          assert head[1..] == [];
          assert WithScore(head[1..], k) == [];
        }
      }
      assert Items(a + b) == Items(a) + Items(b);
      assert RecordsWithScore(catalog, scores, k)
             == (if scores[0] == k then [catalog[0]] else []) + RecordsWithScore(catalog[1..], scores[1..], k);
    }
  }

  /** Score, filter and stable sort, for any scorer: score every record,
      keep the positive ones, sort them stably by descending score. */
  function RankWith(catalog: seq<Record>, score: Scorer): (r: Result<seq<Scored<Record>>, DurationError>)
    ensures r.Success? <==> forall i :: 0 <= i < |catalog| ==> score(catalog[i]).Success?
    ensures r.Failure? ==> exists i :: FirstFailure(catalog, score, i) && score(catalog[i]).error == r.error
    ensures r.Success? ==> SortedDesc(r.value) && |r.value| <= |catalog|
    ensures r.Success? ==>
              forall k :: 0 <= k < |r.value| ==>
                && r.value[k].score > 0
                && r.value[k].item in catalog
                && score(r.value[k].item) == Success(r.value[k].score)
    ensures r.Success? ==>
              forall i :: 0 <= i < |catalog| && score(catalog[i]).value > 0 ==>
                Scored(score(catalog[i]).value, catalog[i]) in r.value
  {
    var scores :- ScoreAll(catalog, score);
    RankedFacts(catalog, score, scores);
    Success(SortByScoreDesc(KeepPositive(catalog, scores)))
  }

  /** What the sorted list of kept pairs holds, given the scores of every record. */
  lemma RankedFacts(catalog: seq<Record>, score: Scorer, scores: seq<nat>)
    requires |scores| == |catalog|
    requires forall i :: 0 <= i < |catalog| ==> score(catalog[i]) == Success(scores[i])
    ensures |SortByScoreDesc(KeepPositive(catalog, scores))| <= |catalog|
    ensures forall k :: 0 <= k < |SortByScoreDesc(KeepPositive(catalog, scores))| ==>
              var x := SortByScoreDesc(KeepPositive(catalog, scores))[k];
              x.score > 0 && x.item in catalog && score(x.item) == Success(x.score)
    ensures forall i :: 0 <= i < |catalog| && scores[i] > 0 ==>
              Scored(scores[i], catalog[i]) in SortByScoreDesc(KeepPositive(catalog, scores))
  {
    var kept := KeepPositive(catalog, scores);
    var sorted := SortByScoreDesc(kept);
    assert |sorted| == |kept| by {
      assert |multiset(sorted)| == |multiset(kept)|;
    }
    forall k | 0 <= k < |sorted|
      ensures sorted[k].score > 0 && sorted[k].item in catalog
      ensures score(sorted[k].item) == Success(sorted[k].score)
    {
      assert sorted[k] in multiset(kept);
      var m :| 0 <= m < |kept| && kept[m] == sorted[k];
      var j :| 0 <= j < |catalog| && kept[m] == Scored(scores[j], catalog[j]);
    }
    forall i | 0 <= i < |catalog| && scores[i] > 0
      ensures Scored(scores[i], catalog[i]) in sorted
    {
      KeepPositiveKeeps(catalog, scores, i);
      assert Scored(scores[i], catalog[i]) in multiset(kept);
    }
  }

  /** The first `max_results` items of the ranking, for any scorer. */
  function RecommendWith(catalog: seq<Record>, maxResults: int, score: Scorer)
    : (r: Result<seq<Record>, DurationError>)
    ensures r.Success? <==> forall i :: 0 <= i < |catalog| ==> score(catalog[i]).Success?
    ensures r.Failure? ==> exists i :: FirstFailure(catalog, score, i) && score(catalog[i]).error == r.error
    ensures r.Success? ==> |r.value| <= |catalog|
    ensures r.Success? && maxResults >= 0 ==> |r.value| <= maxResults
    ensures r.Success? ==>
              forall k :: 0 <= k < |r.value| ==>
                r.value[k] in catalog && score(r.value[k]).Success? && score(r.value[k]).value > 0
  {
    var ranked :- RankWith(catalog, score);
    var top := SliceTo(ranked, maxResults);
    assert forall k :: 0 <= k < |top| ==> top[k] == ranked[k];
    Success(Items(top))
  }

  /** `sorted(results, key=lambda x: x[0], reverse=True)` for `query`. */
  function Ranked(query: string, catalog: seq<Record>, sim: Similarity): (r: Result<seq<Scored<Record>>, DurationError>)
    ensures r.Failure? <==>
              Truthy(Preference(query))
              && exists i :: 0 <= i < |catalog| && ParseDuration(catalog[i].duration).Failure?
    ensures r.Success? ==> SortedDesc(r.value) && |r.value| <= |catalog|
    ensures r.Success? ==>
              forall k :: 0 <= k < |r.value| ==>
                && r.value[k].score > 0
                && r.value[k].item in catalog
                && ScoreRecord(query, Preference(query), r.value[k].item, sim) == Success(r.value[k].score)
  {
    ScorerFails(query, catalog, sim);
    RankWith(catalog, ScorerFor(query, sim))
  }

  /** Record `i` is the first whose duration text cannot be read. */
  ghost predicate FirstMalformed(catalog: seq<Record>, i: int) {
    && 0 <= i < |catalog|
    && ParseDuration(catalog[i].duration).Failure?
    && forall j :: 0 <= j < i ==> ParseDuration(catalog[j].duration).Success?
  }

  /** `recommend_assessments(query, max_results)`. It fails exactly when a
      duration preference is set and some record's duration cannot be read,
      and then with the error of the first such record. */
  function Recommend(query: string, catalog: seq<Record>, maxResults: int, sim: Similarity)
    : (r: Result<seq<Record>, DurationError>)
    ensures r.Failure? <==>
              Truthy(Preference(query))
              && exists i :: 0 <= i < |catalog| && ParseDuration(catalog[i].duration).Failure?
    ensures r.Failure? ==>
              exists i :: FirstMalformed(catalog, i) && r.error == ParseDuration(catalog[i].duration).error
    ensures r.Success? ==> |r.value| <= |catalog|
    ensures r.Success? && maxResults >= 0 ==> |r.value| <= maxResults
    ensures r.Success? ==>
              forall k :: 0 <= k < |r.value| ==>
                && r.value[k] in catalog
                && ScoreRecord(query, Preference(query), r.value[k], sim).Success?
                && ScoreRecord(query, Preference(query), r.value[k], sim).value > 0
  {
    var score := ScorerFor(query, sim);
    ScorerFails(query, catalog, sim);
    RecommendWith(catalog, maxResults, score)
  }

  /** The real scorer fails on a record exactly when a preference is set and
      the record's duration cannot be read. */
  lemma ScorerFails(query: string, catalog: seq<Record>, sim: Similarity)
    ensures forall i :: 0 <= i < |catalog| ==>
              (ScorerFor(query, sim)(catalog[i]).Failure? <==>
                 Truthy(Preference(query)) && ParseDuration(catalog[i].duration).Failure?)
    ensures forall i :: FirstFailure(catalog, ScorerFor(query, sim), i) ==>
              FirstMalformed(catalog, i)
              && ScorerFor(query, sim)(catalog[i]).error == ParseDuration(catalog[i].duration).error
  {
  }

  // ---------------------------------------------------------------------
  // Properties of the ranking as a whole

  /** With every record scored, the result holds `min(max_results, number of
      records with a positive score)` records, and they are the first ones
      of the ranked list. */
  lemma RecommendLength(catalog: seq<Record>, maxResults: int, score: Scorer, scores: seq<nat>)
    requires ScoreAll(catalog, score) == Success(scores)
    requires maxResults >= 0
    ensures RecommendWith(catalog, maxResults, score).Success?
    ensures var positive := |scores| - multiset(scores)[0];
            |RecommendWith(catalog, maxResults, score).value|
            == if maxResults <= positive then maxResults else positive
    ensures RecommendWith(catalog, maxResults, score).value <= Items(RankWith(catalog, score).value)
  {
    TopOfRanking(catalog, scores, maxResults);
  }

  lemma TopOfRanking(catalog: seq<Record>, scores: seq<nat>, maxResults: int)
    requires |scores| == |catalog| && maxResults >= 0
    ensures var ranked := SortByScoreDesc(KeepPositive(catalog, scores));
            var positive := |scores| - multiset(scores)[0];
            && |SliceTo(ranked, maxResults)| == (if maxResults <= positive then maxResults else positive)
            && Items(SliceTo(ranked, maxResults)) <= Items(ranked)
  {
    KeepPositiveLength(catalog, scores);
    var ranked := SortByScoreDesc(KeepPositive(catalog, scores));
    ItemsOfPrefix(SliceTo(ranked, maxResults), ranked);
  }

  /** Ties keep catalogue order: the records of score `k` in the ranked
      list are exactly the catalogue's records of score `k`, in catalogue
      order. */
  lemma RankedTiesKeepCatalogOrder(catalog: seq<Record>, score: Scorer, scores: seq<nat>, k: int)
    requires ScoreAll(catalog, score) == Success(scores)
    requires k >= 1
    ensures Items(WithScore(RankWith(catalog, score).value, k)) == RecordsWithScore(catalog, scores, k)
  {
    KeepPositiveGroups(catalog, scores, k);
  }

  /** The ranked list of a query equals the reference ranking: the score-9
      records, then the score-8 records, ..., then the score-1 records, each
      group in catalogue order. */
  lemma RankedMatchesReference(query: string, catalog: seq<Record>, sim: Similarity, scores: seq<nat>)
    requires ScoreAll(catalog, ScorerFor(query, sim)) == Success(scores)
    ensures Ranked(query, catalog, sim).value == Buckets(KeepPositive(catalog, scores), MaxScore)
  {
    ScoresBounded(query, catalog, sim, scores);
    KeptWithinBounds(catalog, scores);
    SortIsBuckets(KeepPositive(catalog, scores));
  }

  lemma ScoresBounded(query: string, catalog: seq<Record>, sim: Similarity, scores: seq<nat>)
    requires ScoreAll(catalog, ScorerFor(query, sim)) == Success(scores)
    ensures forall i :: 0 <= i < |scores| ==> scores[i] <= MaxScore
  {
    forall i | 0 <= i < |scores|
      ensures scores[i] <= MaxScore
    {
      assert ScorerFor(query, sim)(catalog[i]) == Success(scores[i]);
    }
  }

  lemma KeptWithinBounds(catalog: seq<Record>, scores: seq<nat>)
    requires |scores| == |catalog|
    requires forall i :: 0 <= i < |scores| ==> scores[i] <= MaxScore
    ensures ScoresWithin(KeepPositive(catalog, scores), 1, MaxScore)
  {
    var kept := KeepPositive(catalog, scores);
    forall k | 0 <= k < |kept|
      ensures 1 <= kept[k].score <= MaxScore
    {
      var j :| 0 <= j < |catalog| && kept[k] == Scored(scores[j], catalog[j]);
    }
  }

  /** When every record scores the same positive value, the result is the
      head of the catalogue itself: 15 matching records of score 1 give the
      first 10 in catalogue order. */
  lemma UniformScoresKeepCatalogOrder(catalog: seq<Record>, maxResults: int, score: Scorer, scores: seq<nat>, v: nat)
    requires ScoreAll(catalog, score) == Success(scores)
    requires v >= 1 && forall i :: 0 <= i < |scores| ==> scores[i] == v
    requires maxResults >= 0
    ensures RecommendWith(catalog, maxResults, score)
            == Success(if maxResults <= |catalog| then catalog[..maxResults] else catalog)
  {
    TiesKeepOrder(catalog, scores, maxResults, v);
  }

  lemma TiesKeepOrder(catalog: seq<Record>, scores: seq<nat>, maxResults: int, v: nat)
    requires |scores| == |catalog| && maxResults >= 0
    requires v >= 1 && forall i :: 0 <= i < |scores| ==> scores[i] == v
    ensures Items(SliceTo(SortByScoreDesc(KeepPositive(catalog, scores)), maxResults))
            == if maxResults <= |catalog| then catalog[..maxResults] else catalog
  {
    var kept := KeepPositive(catalog, scores);
    AllPositiveKept(catalog, scores);
    assert ScoresWithin(kept, v, v);
    SortOfTiesIsIdentity(kept, v);
  }

  /** When no score is zero the filter keeps every record. */
  lemma {:induction false} AllPositiveKept(catalog: seq<Record>, scores: seq<nat>)
    requires |scores| == |catalog|
    requires forall i :: 0 <= i < |scores| ==> scores[i] > 0
    ensures |KeepPositive(catalog, scores)| == |catalog|
    ensures forall i :: 0 <= i < |catalog| ==> KeepPositive(catalog, scores)[i] == Scored(scores[i], catalog[i])
  {
    if catalog != [] {
      AllPositiveKept(catalog[1..], scores[1..]);
    }
  }
}

=== FILE: similarity.dfy ===
/** `similar(query, kw) > 0.5`, with difflib's ratio reduced to its size
    bound. `SequenceMatcher.ratio()` is `2M / (|a| + |b|)` where `M` is the
    number of characters in matching blocks, so `M` is at most the shorter
    length, and `ratio > 0.5` is the integer test `4M > |a| + |b|`. */
module Similarity {
  import opened Text
  import opened Wrappers
  import opened Scoring

  /** A matching-character count that never exceeds either string's length,
      as difflib's matching blocks guarantee. */
  ghost predicate BoundedMatches(matches: (string, string) -> nat) {
    forall a, b :: matches(a, b) <= |a| && matches(a, b) <= |b|
  }

  /** `SequenceMatcher(None, a.lower(), b.lower()).ratio() > 0.5` for a
      given matching-character count. */
  function RatioOracle(matches: (string, string) -> nat): (sim: Similarity)
    ensures BoundedMatches(matches) ==>
              forall a, b :: sim(a, b) ==> |a| < 3 * |b| && |b| < 3 * |a|
  {
    var sim := (a: string, b: string) => 4 * matches(Lower(a), Lower(b)) > |a| + |b|;
    assert BoundedMatches(matches) ==> forall a, b :: sim(a, b) ==> |a| < 3 * |b| && |b| < 3 * |a| by {
      if BoundedMatches(matches) {
        forall a: string, b: string | sim(a, b)
          ensures |a| < 3 * |b| && |b| < 3 * |a|
        {
          assert matches(Lower(a), Lower(b)) <= |Lower(a)| && matches(Lower(a), Lower(b)) <= |Lower(b)|;
        }
      }
    }
    sim
  }

  /** The fuzzy branch switched off: only the substring test remains. */
  function NoFuzzy(): Similarity {
    (a: string, b: string) => false
  }

  /** A query at least three times as long as the keyword cannot reach the
      0.5 ratio: `4M <= 4|kw| <= |query| + |kw|`. */
  lemma LongQueryNeverFuzzy(matches: (string, string) -> nat, query: string, kw: string)
    requires BoundedMatches(matches)
    requires |query| >= 3 * |kw|
    ensures !RatioOracle(matches)(query, kw)
  {
    assert matches(Lower(query), Lower(kw)) <= |Lower(kw)|;
  }

  /** Two fuzzy tests that agree on every keyword give the same points. */
  lemma {:induction false} SamePointsWhenAgreeing(query: string, rec: Record, kws: seq<string>, s1: Similarity, s2: Similarity)
    requires forall i :: 0 <= i < |kws| ==> KeywordWanted(query, kws[i], s1) == KeywordWanted(query, kws[i], s2)
    ensures KeywordPoints(query, rec, kws, s1) == KeywordPoints(query, rec, kws, s2)
  {
    if kws != [] {
      SamePointsWhenAgreeing(query, rec, kws[1..], s1, s2);
    }
  }

  /** The longest keyword, "communication", has 13 characters, so from 39
      characters on the fuzzy branch never fires and every score is the
      substring-only score. */
  lemma LongQueryScoresIgnoreFuzzy(matches: (string, string) -> nat, query: string, pref: Option<int>, rec: Record)
    requires BoundedMatches(matches)
    requires |query| >= 39
    ensures ScoreRecord(query, pref, rec, RatioOracle(matches)) == ScoreRecord(query, pref, rec, NoFuzzy())
  {
    var fuzzy := RatioOracle(matches);
    var plain := NoFuzzy();
    KeywordsWantedAlike(matches, query);
    SamePointsWhenAgreeing(query, rec, Keywords, fuzzy, plain);
    SameScoreWhenSamePoints(query, pref, rec, fuzzy, plain);
  }

  lemma KeywordsWantedAlike(matches: (string, string) -> nat, query: string)
    requires BoundedMatches(matches)
    requires |query| >= 39
    ensures forall i :: 0 <= i < |Keywords| ==>
              KeywordWanted(query, Keywords[i], RatioOracle(matches)) == KeywordWanted(query, Keywords[i], NoFuzzy())
  {
    forall i | 0 <= i < |Keywords|
      ensures KeywordWanted(query, Keywords[i], RatioOracle(matches))
              == KeywordWanted(query, Keywords[i], NoFuzzy())
    {
      var kw := Keywords[i];
      assert |kw| <= 13;
      LongQueryNeverFuzzy(matches, query, kw);
    }
  }
}

=== FILE: text.dfy ===
/** The string primitives the recommender relies on: Python's `str.lower()`,
    the `in` substring test, `str.split()`, `str.strip()`, `str(n)` and the
    whitespace set those methods share. */
module Text {
  import opened Wrappers

  /** Python's `str.isspace()` set, which `split()` and `strip()` treat as
      separators: the ASCII controls 9-13 and 28-31, the space, and the
      Unicode space characters. */
  predicate IsSpace(c: char): (b: bool)
    ensures (c as int) < 128 ==> (b <==> c == ' ' || 9 <= c as int <= 13 || 28 <= c as int <= 31)
    ensures b ==> !IsDigit(c) && !('A' <= c <= 'Z')
  {
    || c == ' '
    || ('\t' <= c <= '\r')
    || ('\U{1c}' <= c <= '\U{1f}')
    || c == '\U{85}'
    || c == '\U{a0}'
    || c == '\U{1680}'
    || ('\U{2000}' <= c <= '\U{200a}')
    || c == '\U{2028}'
    || c == '\U{2029}'
    || c == '\U{202f}'
    || c == '\U{205f}'
    || c == '\U{3000}'
  }

  predicate AllSpace(s: string) {
    forall i :: 0 <= i < |s| ==> IsSpace(s[i])
  }

  predicate NoSpace(s: string) {
    forall i :: 0 <= i < |s| ==> !IsSpace(s[i])
  }

  predicate IsDigit(c: char) {
    '0' <= c <= '9'
  }

  /** Lower-cases one character (ASCII letters only). */
  function LowerChar(c: char): char {
    if 'A' <= c <= 'Z' then (c as int - 'A' as int + 'a' as int) as char else c
  }

  /** `s.lower()`, restricted to the ASCII letters: each upper-case letter
      becomes its lower-case partner, every other character is kept, and no
      upper-case letter is left. */
  function Lower(s: string): (r: string)
    ensures |r| == |s|
    ensures forall i :: 0 <= i < |s| && 'A' <= s[i] <= 'Z' ==> r[i] as int == s[i] as int + 32
    ensures forall i :: 0 <= i < |s| && !('A' <= s[i] <= 'Z') ==> r[i] == s[i]
    ensures forall i :: 0 <= i < |r| ==> !('A' <= r[i] <= 'Z')
  {
    seq(|s|, i requires 0 <= i < |s| => LowerChar(s[i]))
  }

  /** `p` occurs in `s` starting at position `i`. */
  ghost predicate OccursAt(p: string, s: string, i: int) {
    0 <= i && i + |p| <= |s| && s[i..i + |p|] == p
  }

  /** Python's `p in s` for strings: `p` is a contiguous substring of `s`. */
  function IsSubstring(p: string, s: string): (b: bool)
    ensures b <==> exists i :: OccursAt(p, s, i)
    decreases |s|
  {
    if |p| > |s| then
      false
    else if p <= s then
      assert OccursAt(p, s, 0);
      true
    else
      var b := IsSubstring(p, s[1..]);
      OccursInTail(p, s);
      b
  }

  /** Away from position 0, an occurrence in `s` is an occurrence in `s[1..]`
      shifted by one. */
  lemma OccursInTail(p: string, s: string)
    requires |s| > 0 && !(p <= s)
    ensures (exists i :: OccursAt(p, s, i)) <==> (exists i :: OccursAt(p, s[1..], i))
  {
    if i :| OccursAt(p, s[1..], i) {
      assert OccursAt(p, s, i + 1);
    }
    OccursAtStart(p, s);
    if i :| OccursAt(p, s, i) {
      assert OccursAt(p, s[1..], i - 1);
    }
  }

  /** An occurrence at position 0 is a prefix. */
  lemma OccursAtStart(p: string, s: string)
    ensures OccursAt(p, s, 0) ==> p <= s
  {
    if OccursAt(p, s, 0) {
      assert s[..|p|] == p;
    }
  }

  /** Everything after the leading whitespace of `s`. */
  function SkipSpaces(s: string): (r: string)
    ensures |r| <= |s| && r == s[|s| - |r|..]
    ensures AllSpace(s[..|s| - |r|])
    ensures r == [] || !IsSpace(r[0])
  {
    if |s| > 0 && IsSpace(s[0]) then SkipSpaces(s[1..]) else s
  }

  /** The longest prefix of `s` that holds no whitespace. */
  function TakeWord(s: string): (r: string)
    ensures r <= s && NoSpace(r)
    ensures |r| == |s| || IsSpace(s[|r|])
  {
    if |s| > 0 && !IsSpace(s[0]) then [s[0]] + TakeWord(s[1..]) else []
  }

  /** `s.split()[0]`: the first whitespace-delimited token, or `None` where
      Python raises `IndexError` because `split()` returned no token. */
  function FirstToken(s: string): (r: Option<string>)
    ensures r.None? <==> AllSpace(s)
    ensures r.Some? ==> |r.value| > 0 && NoSpace(r.value)
  {
    var t := SkipSpaces(s);
    if t == [] then
      assert s[..|s|] == s;
      None
    else
      Some(TakeWord(t))
  }

  /** The first token is exactly the word after the leading whitespace:
      splitting `lead + w + rest` yields `w` first whenever `lead` is blank,
      `w` is a non-empty word and `rest` is empty or starts with whitespace. */
  lemma {:induction false} FirstTokenOf(lead: string, w: string, rest: string)
    requires AllSpace(lead) && |w| > 0 && NoSpace(w)
    requires rest == [] || IsSpace(rest[0])
    ensures FirstToken(lead + w + rest) == Some(w)
  {
    var t := w + rest;
    assert t[0] == w[0];
    SkipLeading(lead, t);
    assert lead + w + rest == lead + t;
    TakeWordOf(w, rest);
  }

  lemma {:induction false} SkipLeading(lead: string, t: string)
    requires AllSpace(lead) && (t == [] || !IsSpace(t[0]))
    ensures SkipSpaces(lead + t) == t
  {
    if lead != [] {
      assert (lead + t)[1..] == lead[1..] + t;
      SkipLeading(lead[1..], t);
    }
  }

  lemma {:induction false} TakeWordOf(w: string, rest: string)
    requires NoSpace(w) && (rest == [] || IsSpace(rest[0]))
    ensures TakeWord(w + rest) == w
  {
    if w != [] {
      assert (w + rest)[1..] == w[1..] + rest;
      TakeWordOf(w[1..], rest);
    }
  }

  /** `s.strip()`: `s` without its leading and trailing whitespace. */
  function Strip(s: string): (r: string)
    ensures r == [] || (!IsSpace(r[0]) && !IsSpace(r[|r| - 1]))
    ensures r == [] <==> AllSpace(s)
  {
    var t := SkipSpaces(s);
    assert s == s[..|s| - |t|] + t;
    TrimEnd(t)
  }

  /** `s` without its trailing whitespace. */
  function TrimEnd(s: string): (r: string)
    ensures r <= s && AllSpace(s[|r|..])
    ensures r == [] || !IsSpace(r[|r| - 1])
  {
    if |s| > 0 && IsSpace(s[|s| - 1]) then
      var r := TrimEnd(s[..|s| - 1]);
      assert s[|r|..] == s[..|s| - 1][|r|..] + [s[|s| - 1]];
      r
    else
      s
  }

  /** The value of a digit character. */
  function DigitValue(c: char): nat
    requires IsDigit(c)
  {
    c as int - '0' as int
  }

  function DigitChar(d: nat): (c: char)
    requires d < 10
    ensures IsDigit(c) && DigitValue(c) == d
  {
    ('0' as int + d) as char
  }

  /** The number a non-empty run of decimal digits denotes. */
  function DigitsValue(s: string): nat
    requires forall i :: 0 <= i < |s| ==> IsDigit(s[i])
  {
    if s == [] then 0 else 10 * DigitsValue(s[..|s| - 1]) + DigitValue(s[|s| - 1])
  }

  /** Python's `str(n)` for a non-negative integer. */
  function DecimalString(n: nat): (r: string)
    ensures |r| > 0 && forall i :: 0 <= i < |r| ==> IsDigit(r[i])
    ensures |r| > 1 ==> r[0] != '0'
  {
    if n < 10 then [DigitChar(n)] else DecimalString(n / 10) + [DigitChar(n % 10)]
  }

  /** Reading back the decimal string of `n` gives `n`. */
  lemma {:induction false} DecimalStringRoundTrip(n: nat)
    ensures DigitsValue(DecimalString(n)) == n
  {
    var r := DecimalString(n);
    if n >= 10 {
      DecimalStringRoundTrip(n / 10);
      assert r[..|r| - 1] == DecimalString(n / 10);
    }
  }
}

=== FILE: ui.dfy ===
/** The button handler of the interactive page (app.py): a blank query is
    answered with a warning; any other query goes, unstripped, to the same
    scoring engine with the default `max_results`. */
module Ui {
  import opened Wrappers
  import opened Text
  import opened Duration
  import opened Ranking
  import opened Scoring
  import Api

  datatype Outcome =
    | Warning(message: string)
    | Shown(recommendations: seq<Record>)   // the "Top N" banner, links and table
    | Crashed(error: DurationError)         // the exception surfaces on the page

  const BlankQueryWarning: string := "Please enter a job description or query."

  /** Pressing "Recommend" with `query` in the text area. */
  function Submit(query: string, catalog: seq<Record>, sim: Similarity): (r: Outcome)
    ensures r.Warning? <==> AllSpace(query)
    ensures r.Shown? ==> Recommend(query, catalog, DefaultMaxResults, sim) == Success(r.recommendations)
    ensures r.Crashed? ==> Recommend(query, catalog, DefaultMaxResults, sim) == Failure(r.error)
    ensures r.Shown? ==> |r.recommendations| <= DefaultMaxResults && |r.recommendations| <= |catalog|
    ensures r.Shown? ==> forall i :: 0 <= i < |r.recommendations| ==> r.recommendations[i] in catalog
    ensures r.Crashed? <==>
              && !AllSpace(query)
              && Truthy(Preference(query))
              && exists i :: 0 <= i < |catalog| && ParseDuration(catalog[i].duration).Failure?
  {
    if Strip(query) != [] then
      match Recommend(query, catalog, DefaultMaxResults, sim)
      case Success(recs) => Shown(recs)
      case Failure(e) => Crashed(e)
    else
      Warning(BlankQueryWarning)
  }

  /** What the page shows is the head of the engine's ranking: its first
      ten records, or all of them when fewer have a positive score, in
      non-increasing score order. */
  lemma ShownIsRankedPrefix(query: string, catalog: seq<Record>, sim: Similarity)
    requires Submit(query, catalog, sim).Shown?
    ensures Ranked(query, catalog, sim).Success?
    ensures Submit(query, catalog, sim).recommendations <= Items(Ranked(query, catalog, sim).value)
    ensures var ranked := Ranked(query, catalog, sim).value;
            |Submit(query, catalog, sim).recommendations|
            == if |ranked| <= DefaultMaxResults then |ranked| else DefaultMaxResults
    ensures SortedDesc(Ranked(query, catalog, sim).value)
  {
    var score := ScorerFor(query, sim);
    assert Recommend(query, catalog, DefaultMaxResults, sim) == RecommendWith(catalog, DefaultMaxResults, score);
    var scores := ScoreAll(catalog, score);
    assert scores.Success?;
    RecommendLength(catalog, DefaultMaxResults, score, scores.value);
  }

  /** The page and the HTTP endpoint disagree on blanks: the page warns,
      while the endpoint's `not query` test accepts them and answers 200. */
  lemma BlankQueryHandledDifferently(query: string, catalog: seq<Record>, sim: Similarity)
    requires query != [] && AllSpace(query)
    ensures Submit(query, catalog, sim) == Warning(BlankQueryWarning)
    ensures Api.Endpoint(Api.Get(query), catalog, sim).Ok?
  {
    Api.BlankQueryAccepted(query, catalog, sim);
  }
}

=== FILE: wrappers.dfy ===
/** Failure-compatible datatypes shared by the whole model. */
module Wrappers {

  /** An optional value; Python's `None` is `None` here. */
  datatype Option<+T> = None | Some(value: T)

  /** A value or the error that a Python exception would carry. */
  datatype Result<+T, +E> = Success(value: T) | Failure(error: E) {

    predicate IsFailure() {
      Failure?
    }

    function PropagateFailure<U>(): Result<U, E>
      requires Failure?
    {
      Failure(error)
    }

    function Extract(): T
      requires Success?
    {
      value
    }
  }
}
